=== FILE: README.md ===
# ReInfoSelect: data loaders, dev run and selection episode, in Dafny

ReInfoSelect trains a neural ranker on weakly supervised data. A policy
network chooses which training batches to learn from, and the reward is the
change in the dev NDCG. This project models the deterministic core of that
pipeline and proves what it promises:

- `dataloaders/dataloader.py` (module `DataLoader`). Each tab-separated line
  is read, split into tokens, filtered for stopwords and stemmed. The tokens
  are then truncated and padded (query to 20 tokens, documents to
  `max_seq_len`) and mapped to vocabulary ids, with `<UNK>` as the fallback
  and `KeyError` when it is missing. Dev lines also keep the integer label
  `qd_score`, the query and document ids, and the baseline score. The
  examples are then cut into batches of `batch_size`: training batches in a
  shuffled order, dev batches in file order.
- `train_bert.py`, `dev` (module `DevRun`). Every scored
  (query id, document id, label, score) quadruple goes into a dictionary
  keyed by query id, in first-insertion order. Each query's list is sorted
  by score, highest first, with ties kept in input order. One TREC run line
  `qid Q0 docid rank score bert` is written per entry.
- `train_bert.py`, `train` (module `Episode`). Each epoch:
  - Measure the dev NDCG.
  - For each batch, skip it when the sampled action sum is below 1 and the
    step is not a multiple of `T`. Otherwise record its keep and discard
    log-probabilities, measure the NDCG gain as its reward, and at every
    multiple of `T` run the REINFORCE update. That update walks the rewards
    backwards with discount `gamma`, routes each step to its keep or discard
    log-probability by the sign of its return, and clears the window.
  - Track `best_ndcg` throughout.

The Python built-ins these rely on are modelled in module `PyText`:
`str.strip`, `str.split(sep)`, `str.split()`, `int(text)` and `str(int)`.
Each is paired with its inverse. Module `Common` holds `Option`, `Result`
(with the Python exception raised) and small helpers.

Imperative code is modelled as methods with loops:
- the token loops of `stopword_removal`, `stemming`, `tok2idx` and the
  padding `while` loops;
- the per-line file loops;
- the batching `for` loops;
- the grouping and writing loops of `dev`;
- the nested loops of `train`, and its reversed discount loop.

Each method is proved equal to a specification function. The lemmas about
that function state the promised property.

## Model

| member | source | states |
|---|---|---|
| `DataLoader.StopwordRemoval` | ReInfoSelect/dataloaders/dataloader.py:8-17 | the loop returns exactly `Filtered(toks)`: the non-stopword tokens in input order |
| `DataLoader.FilteredKeepsExactly` | ReInfoSelect/dataloaders/dataloader.py:13-17 | no stopword survives, and every other token survives exactly as many times as it occurs (multiset equality) |
| `DataLoader.FilteredConcat` | ReInfoSelect/dataloaders/dataloader.py:14-16 | filtering preserves order: filtering `a + b` gives filtered `a` followed by filtered `b` |
| `DataLoader.Stemming` | ReInfoSelect/dataloaders/dataloader.py:19-26 | one output per token, and token i becomes `stem(toks[i])` |
| `DataLoader.Tok2Idx` | ReInfoSelect/dataloaders/dataloader.py:48-55 | one id per token: the token's own id if it is in the vocabulary, otherwise the id of `<UNK>`; `KeyError` exactly when some token is missing and `<UNK>` is missing too |
| `DataLoader.SliceStop` | ReInfoSelect/dataloaders/dataloader.py:75-81 | the length of `toks[:cap]` is at most `len(toks)`, and equals `min(len(toks), cap)` for a non-negative cap |
| `DataLoader.TruncatePad` | ReInfoSelect/dataloaders/dataloader.py:75-88 | the returned length is that of the slice; the list has `max(cap, len)` entries; it starts with the first `len` tokens and every later entry is `<PAD>` |
| `DataLoader.PaddedShape` | ReInfoSelect/dataloaders/dataloader.py:83-88 | for a non-negative cap the padded list has exactly `cap` entries: the first `min(n, cap)` tokens, then `<PAD>` |
| `DataLoader.TokensOf` | ReInfoSelect/dataloaders/dataloader.py:63-73 | `split()`, then stopword removal, then stemming, composed as in the reader |
| `DataLoader.EncodeOf` | ReInfoSelect/dataloaders/dataloader.py:75-92 | truncating, padding and looking up a token list gives the encoding specification, plus the true length |
| `DataLoader.EncodedSpec` | ReInfoSelect/dataloaders/dataloader.py:75-92 | a successful encoding has `max(cap, len)` ids; id i is that of token i below the true length and that of `<PAD>` from there on |
| `DataLoader.EncodedTotal` | ReInfoSelect/dataloaders/dataloader.py:48-55 | with `<UNK>` in the vocabulary, encoding never raises |
| `DataLoader.ReadTrainLine` | ReInfoSelect/dataloaders/dataloader.py:61-100 | the per-line reader gives the `TrainLine` specification, including the `IndexError` and `KeyError` paths |
| `DataLoader.TrainLine` | ReInfoSelect/dataloaders/dataloader.py:61-100 | what one training line becomes: `IndexError` if and only if it has fewer than three tab fields; any other failure is a `KeyError` from the vocabulary |
| `DataLoader.TrainEncodeSpec` | ReInfoSelect/dataloaders/dataloader.py:75-100 | training features: the query row has exactly 20 ids with true length at most 20; document rows have `max_seq_len` ids; every row encodes its tokens |
| `DataLoader.TrainEncodeTotal` | ReInfoSelect/dataloaders/dataloader.py:90-92 | with `<UNK>` in the vocabulary, encoding the three token lists succeeds |
| `DataLoader.TrainRecordShape` | ReInfoSelect/dataloaders/dataloader.py:61-100 | a line that parses has at least three tab fields, and its rows encode the tokens of fields 0, 1 and 2 |
| `DataLoader.TrainRecordTotal` | ReInfoSelect/dataloaders/dataloader.py:61-65 | with `<UNK>` present: `IndexError` if and only if fewer than three fields; success if and only if at least three |
| `DataLoader.ReadDevLine` | ReInfoSelect/dataloaders/dataloader.py:107-144 | the per-line dev reader gives the `DevLine` specification, with `IndexError`, `ValueError` and `KeyError` raised in Python's order |
| `DataLoader.DevLine` | ReInfoSelect/dataloaders/dataloader.py:107-144 | what one dev line becomes: fewer than three tab fields raise `IndexError`; a line that parses has six or more fields and its label is `int()` of field 2 |
| `DataLoader.DevFields` | ReInfoSelect/dataloaders/dataloader.py:111-144 | once field 2 has gone through `int()`: `ValueError` exactly when `int()` failed; on success at least six fields, the label is the parsed integer and the ids are fields 3 and 4 |
| `DataLoader.DevRecordErrors` | ReInfoSelect/dataloaders/dataloader.py:107-114 | fewer than 3 fields gives `IndexError`; a field 2 that `int()` rejects gives `ValueError`; 3 to 5 fields with an integer gives `IndexError` |
| `DataLoader.DevEncodeSpec` | ReInfoSelect/dataloaders/dataloader.py:122-144 | dev features keep the label, the query id, the document id and the baseline score; the query row has 20 ids and both rows encode their tokens |
| `DataLoader.DevEncodeTotal` | ReInfoSelect/dataloaders/dataloader.py:133-134 | with `<UNK>` in the vocabulary, dev encoding succeeds |
| `DataLoader.DevRecordTotal` | ReInfoSelect/dataloaders/dataloader.py:107-144 | with six fields, an integer in field 2 and `<UNK>` present, a dev line never fails |
| `DataLoader.DevRecordFields` | ReInfoSelect/dataloaders/dataloader.py:109-144 | a parsed dev line has six fields; `qd_score` is `int(s[2])`; the ids are `s[3]` and `s[4]`; the baseline score is `s[5]`; both rows encode their tokens |
| `DataLoader.IntToStringPlain` | ReInfoSelect/dataloaders/dataloader.py:111 | the text of an integer holds no tab and no newline, so it is a valid label field |
| `DataLoader.FieldsOfJoin` | ReInfoSelect/dataloaders/dataloader.py:107 | `line.strip('\n').split('\t')` of fields joined by tabs and ended by a newline gives the fields back |
| `DataLoader.DevLineOf` | ReInfoSelect/dataloaders/dataloader.py:107-114 | a line whose fields are known, with an integer in field 2, reads as the label and the identifying fields |
| `DataLoader.DevLineRoundTrip` | ReInfoSelect/dataloaders/dataloader.py:107-114 | writing a dev example as a tab-separated line and reading it back returns its label, query id, document id and baseline-score text |
| `DataLoader.ParseAll` | ReInfoSelect/dataloaders/dataloader.py:58-101 | a successful file read holds exactly one feature per line |
| `DataLoader.ParseAllSpec` | ReInfoSelect/dataloaders/dataloader.py:58-101 | reading succeeds if and only if every line parses, and then feature i is line i's; otherwise the error is that of the first failing line |
| `DataLoader.ParseAllSticky` | ReInfoSelect/dataloaders/dataloader.py:60 | once a prefix of the file fails, the whole file fails with that error (an exception ends the loop) |
| `DataLoader.ParseAllStep` | ReInfoSelect/dataloaders/dataloader.py:60-100 | one more line appends its features or ends reading with its error |
| `DataLoader.ReadTrainToFeatures` | ReInfoSelect/dataloaders/dataloader.py:57-101 | the file loop returns `ParseAll` of the lines with the training parser |
| `DataLoader.ReadDevToFeatures` | ReInfoSelect/dataloaders/dataloader.py:103-145 | the file loop returns `ParseAll` of the lines with the dev parser |
| `DataLoader.ChunksFlatten` | ReInfoSelect/dataloaders/dataloader.py:154-155 | the batch slices concatenated in order give the whole index list back: nothing is lost or repeated |
| `DataLoader.ChunksShape` | ReInfoSelect/dataloaders/dataloader.py:154-155 | zero elements give zero slices; otherwise `ceil(n / batch_size)` non-empty slices, all of size `batch_size` except possibly the last |
| `DataLoader.ChunkAt` | ReInfoSelect/dataloaders/dataloader.py:155 | slice k is `idx[k*batch_size : (k+1)*batch_size]`, cut at the end |
| `DataLoader.ChunksInRange` | ReInfoSelect/dataloaders/dataloader.py:155-162 | slices of an in-range index list stay in range, so `features[i]` never fails |
| `DataLoader.Chunks` | ReInfoSelect/dataloaders/dataloader.py:154-155 | the slices `idx[start:start+batch_size]` for `start` in `range(0, n, batch_size)`: never more slices than elements; their shape and content are stated by `ChunksShape`, `ChunkAt` and `ChunksFlatten` |
| `DataLoader.ChunksPrefix` | ReInfoSelect/dataloaders/dataloader.py:154-155 | the first k batches together cover exactly the first `min(k * batch_size, n)` indices, in order |
| `DataLoader.Arange` | ReInfoSelect/dataloaders/dataloader.py:150 | `np.arange(n)` is a permutation of 0..n-1 |
| `DataLoader.ChunksStep` | ReInfoSelect/dataloaders/dataloader.py:154-155 | one iteration of the batching loop takes the next slice and leaves the rest |
| `DataLoader.MakeTrainBatches` | ReInfoSelect/dataloaders/dataloader.py:154-169 | the training batching loop produces `TrainBatches` of the index order |
| `DataLoader.MakeDevBatches` | ReInfoSelect/dataloaders/dataloader.py:177-193 | the dev batching loop produces `DevBatches` in file order |
| `DataLoader.TrainDataloader` | ReInfoSelect/dataloaders/dataloader.py:147-170 | read errors propagate; `batch_size == 0` raises `ValueError`; a negative `batch_size` gives no batches; otherwise the batches of the shuffled order (file order without shuffling) |
| `DataLoader.DevDataloader` | ReInfoSelect/dataloaders/dataloader.py:172-194 | read errors propagate; `batch_size == 0` raises `ValueError`; a negative `batch_size` gives no batches; otherwise the batches in file order |
| `DataLoader.TrainBatchesOfAt` | ReInfoSelect/dataloaders/dataloader.py:154-168 | batch k is the batch built from slice k |
| `DataLoader.DevBatchesOfAt` | ReInfoSelect/dataloaders/dataloader.py:177-193 | dev batch k is the batch built from slice k |
| `DataLoader.TrainBatchRow` | ReInfoSelect/dataloaders/dataloader.py:157-162 | every column of a batch has one entry per index, and row j holds the six fields of `features[batch_idx[j]]` |
| `DataLoader.DevBatchRow` | ReInfoSelect/dataloaders/dataloader.py:180-187 | every column of a dev batch has one entry per index, and row j holds the eight fields of `features[batch_idx[j]]`, aligned across columns |
| `DataLoader.TrainBatchAt` | ReInfoSelect/dataloaders/dataloader.py:154-168 | batch k is built from `idx[k*bs : (k+1)*bs]` and holds `min(bs, n - k*bs)` examples |
| `DataLoader.DevBatchAt` | ReInfoSelect/dataloaders/dataloader.py:175-192 | dev batch k holds examples `k*bs, k*bs+1, ...` in file order, `min(bs, n - k*bs)` of them |
| `DataLoader.TrainBatchCount` | ReInfoSelect/dataloaders/dataloader.py:154 | a pass has no batches exactly when there are no examples, and otherwise `ceil(n / batch_size)` batches |
| `DataLoader.DevBatchCount` | ReInfoSelect/dataloaders/dataloader.py:177 | the dev loader has no batches exactly when there are no examples, and otherwise `ceil(n / batch_size)` batches |
| `PyText.StripLeading` | ReInfoSelect/dataloaders/dataloader.py:61 | what is left is a suffix; every removed character was selected; the rest does not start with a selected one |
| `PyText.StripTrailing` | ReInfoSelect/dataloaders/dataloader.py:61 | what is left is a prefix; every removed character was selected; the rest does not end with a selected one |
| `PyText.Strip` | ReInfoSelect/dataloaders/dataloader.py:61 | `str.strip`: the result is no longer than the text and neither starts nor ends with a selected character |
| `PyText.StripEmpty` | ReInfoSelect/dataloaders/dataloader.py:61 | stripping leaves nothing exactly when every character of the text is selected |
| `PyText.StripAround` | ReInfoSelect/dataloaders/dataloader.py:61 | stripping a text surrounded by selected characters gives the text back |
| `PyText.SplitOn` | ReInfoSelect/dataloaders/dataloader.py:61 | `split('\t')` gives at least one field; no field holds the separator; joining the fields gives the text back |
| `PyText.SplitJoin` | ReInfoSelect/dataloaders/dataloader.py:61 | splitting separator-free fields joined by the separator gives the fields back |
| `PyText.SplitLineJoin` | ReInfoSelect/dataloaders/dataloader.py:61 | a line of joined fields ended by a newline splits back into those fields once the newline is stripped |
| `PyText.StripNewline` | ReInfoSelect/dataloaders/dataloader.py:61 | `strip('\n')` removes exactly the final newline of a line |
| `PyText.WordLen` | ReInfoSelect/dataloaders/dataloader.py:63 | the leading run of non-whitespace is maximal |
| `PyText.SplitWords` | ReInfoSelect/dataloaders/dataloader.py:63-65 | `split()` gives only non-empty words without whitespace |
| `PyText.SplitWordsWord` | ReInfoSelect/dataloaders/dataloader.py:63 | a word followed by whitespace or the end splits off as one piece |
| `PyText.SplitWordsSpace` | ReInfoSelect/dataloaders/dataloader.py:63 | leading whitespace does not change `split()` |
| `PyText.SplitWordsJoin` | ReInfoSelect/dataloaders/dataloader.py:63 | words joined by single spaces split back into the same words |
| `PyText.NatToString` | ReInfoSelect/train_bert.py:39 | `str(n)` of a natural number is a non-empty string of digits |
| `PyText.NatToStringValue` | ReInfoSelect/train_bert.py:39 | `str(n)` is a decimal literal whose value is n |
| `PyText.ParseDecimal` | ReInfoSelect/dataloaders/dataloader.py:111 | `int()` of a decimal literal surrounded by `int()`'s own whitespace (the six C whitespace characters and non-ASCII Unicode whitespace, not U+001C–U+001F) is its value, of any length (no digit limit, see Left out) |
| `PyText.ParseNegative` | ReInfoSelect/dataloaders/dataloader.py:111 | `int()` of `-` followed by a decimal literal, with the same surroundings, is minus its value |
| `PyText.ParseLiteral` | ReInfoSelect/dataloaders/dataloader.py:111 | a literal that `int()` accepts ends in a digit, and a negative value has a leading minus sign |
| `PyText.ParseInt` | ReInfoSelect/dataloaders/dataloader.py:111 | `int(text)`: an accepted text ends, once `int()`'s whitespace is trimmed, in a digit, and a negative result comes from a leading minus sign; `ParseIntRoundTrip` and `ParseIntRejects` state what it accepts and what it rejects |
| `PyText.IntToString` | ReInfoSelect/dataloaders/dataloader.py:111 | `str(i)`: a minus sign exactly for a negative integer, then only digits; `int()` reads it back (`IntToStringParses`) |
| `PyText.NatToStringParses` | ReInfoSelect/train_bert.py:39 | `int(str(rank))` gives the rank back |
| `PyText.ParseIntRoundTrip` | ReInfoSelect/dataloaders/dataloader.py:111 | `int()` reads back `str(i)` for every integer i (no digit limit, see Left out), whatever `int()` whitespace (tab, line feed, vertical tab, form feed, carriage return, space, non-ASCII Unicode whitespace) surrounds it |
| `PyText.IntToStringParses` | ReInfoSelect/dataloaders/dataloader.py:111 | `int(str(i)) == i` for every integer i (no digit limit, see Left out) |
| `PyText.NegativeParses` | ReInfoSelect/dataloaders/dataloader.py:111 | `int()` of `-` followed by `str(n)` is `-n` |
| `PyText.ParseIntRejects` | ReInfoSelect/dataloaders/dataloader.py:111 | a text holding a character that can be neither `int()` whitespace, a digit, a sign nor an underscore makes `int()` raise `ValueError`; this includes U+001C–U+001F, which `str.split()` counts as whitespace |
| `PyText.SeparatorRejected` | ReInfoSelect/dataloaders/dataloader.py:111 | `int()` of an information separator (U+001F) followed by a digit raises `ValueError`, although `str.isspace()` accepts the separator |
| `PyText.StripKeeps` | ReInfoSelect/dataloaders/dataloader.py:61 | a character that strip does not select survives stripping |
| `PyText.NotDecimal` | ReInfoSelect/dataloaders/dataloader.py:111 | a text holding a non-digit, non-underscore character is not a decimal literal |
| `DevRun.BatchItems` | ReInfoSelect/train_bert.py:29 | `zip` yields as many quadruples as its shortest column |
| `DevRun.QueryOrder` | ReInfoSelect/train_bert.py:29-33 | the dictionary's keys in first-insertion order, at most one per pair; `QueryOrderSpec` states they are distinct and exactly the queries seen |
| `DevRun.Group` | ReInfoSelect/train_bert.py:29-33 | one query's list, built by appending in input order, at most one entry per pair; `GroupSpec` states it holds exactly that query's entries |
| `DevRun.QueryOrderSpec` | ReInfoSelect/train_bert.py:29-33 | the dictionary's keys are distinct, and a query is a key if and only if some scored pair has it |
| `DevRun.GroupSpec` | ReInfoSelect/train_bert.py:29-33 | a query without pairs has no list; every entry in a query's list comes from a pair of that query, and every pair of that query has its entry in the list |
| `DevRun.CollectStep` | ReInfoSelect/train_bert.py:30-33 | one append keeps the dictionary equal to the grouping of the pairs seen so far, and adds a new key only at a query's first pair |
| `DevRun.CollectRun` | ReInfoSelect/train_bert.py:18-33 | after all batches: keys in first-appearance order, a key for exactly the queries seen, and each list the entries of that query in input order |
| `DevRun.CollectBatch` | ReInfoSelect/train_bert.py:29-33 | the inner loop over one batch extends the grouping by that batch's quadruples |
| `DevRun.Insert` | ReInfoSelect/train_bert.py:37 | inserting one entry adds exactly one element |
| `DevRun.InsertPerm` | ReInfoSelect/train_bert.py:37 | insertion adds exactly the inserted entry (multiset) |
| `DevRun.InsertSorted` | ReInfoSelect/train_bert.py:37 | insertion keeps a list sorted by descending score |
| `DevRun.InsertStable` | ReInfoSelect/train_bert.py:37 | an inserted entry goes after every entry of equal score |
| `DevRun.SortDesc` | ReInfoSelect/train_bert.py:37 | `sorted(scores, key=score, reverse=True)` as an insertion sort, with as many entries as its input; `SortDescSorted`, `SortDescPerm` and `SortDescStable` state that it is ordered, a permutation and stable |
| `DevRun.SortDescSorted` | ReInfoSelect/train_bert.py:37 | `sorted(key=score, reverse=True)` orders by score, highest first |
| `DevRun.SortDescPerm` | ReInfoSelect/train_bert.py:37 | the sort is a permutation of its input |
| `DevRun.SortDescStable` | ReInfoSelect/train_bert.py:37 | the sort is stable: entries with equal score keep their input order |
| `DevRun.WriteRun` | ReInfoSelect/train_bert.py:35-39 | the writing loops produce, query by query in dictionary order, the lines of its sorted list ranked 1, 2, ... |
| `DevRun.RunLine` | ReInfoSelect/train_bert.py:39 | the text of one run line; `RunLineFields` states that it splits into the six TREC columns with a readable rank, and `RunLineJoin` that it equals those columns joined by spaces plus a newline |
| `DevRun.Dev` | ReInfoSelect/train_bert.py:16-39 | the run is the grouped, sorted and written run of all zipped quadruples |
| `DevRun.RunLineFields` | ReInfoSelect/train_bert.py:39 | a run line splits on spaces into the six TREC columns, and its rank column reads back as the rank |
| `DevRun.RunLineJoin` | ReInfoSelect/train_bert.py:39 | `RunLine` is its six columns, with `str(rank)` as the fourth, joined by single spaces, then a newline |
| `DevRun.BlockRanks` | ReInfoSelect/train_bert.py:37-39 | a query's block has one line per entry; line i carries rank i+1 and entry i; scores never increase down the block |
| `DevRun.BlocksLength` | ReInfoSelect/train_bert.py:36-39 | the run has as many lines as the listed groups have entries |
| `DevRun.RunLength` | ReInfoSelect/train_bert.py:29-39 | every zipped quadruple is written exactly once: one run line per quadruple |
| `DevRun.GroupTotal` | ReInfoSelect/train_bert.py:29-33 | the groups of all keys together hold exactly as many entries as there were pairs |
| `Episode.Discounted` | ReInfoSelect/train_bert.py:95-99 | one return per reward |
| `Episode.DiscountedRecurrence` | ReInfoSelect/train_bert.py:98-99 | `R_i = rewards[i] + gamma * R_{i+1}`, with 0 past the last reward |
| `Episode.WeightedSumCons` | ReInfoSelect/train_bert.py:99 | the discounted sum of `[x] + ys` is `x + gamma * (discounted sum of ys)` |
| `Episode.DiscountedClosedForm` | ReInfoSelect/train_bert.py:95-99 | each return is the discounted sum of the rewards from that step on: `sum_j gamma^j * rewards[i+j]` |
| `Episode.RoutedLogProbs` | ReInfoSelect/train_bert.py:100-105 | one log-probability per step; `Routed` states that it is the keep one exactly when the return is positive |
| `Episode.RoutedReturns` | ReInfoSelect/train_bert.py:100-105 | one return per step; `Routed` states that it is `R` when `R > 0` and `-R` otherwise, so never negative |
| `Episode.Routed` | ReInfoSelect/train_bert.py:100-105 | a positive return routes to the keep log-probability and is kept; any other routes to the discard log-probability and is negated; every routed return is non-negative |
| `Episode.PolicyUpdate` | ReInfoSelect/train_bert.py:95-105 | the reversed loop builds, in step order, the routed log-probabilities (ahead of what `log_probs` held) and the routed returns of the discounted rewards |
| `Episode.Skipped` | ReInfoSelect/train_bert.py:68-69 | the skip rule: a step whose index is a multiple of T, or whose action sum is at least 1, is never skipped |
| `Episode.EpochStart` | ReInfoSelect/train_bert.py:51-59 | the start of an epoch: `best_ndcg` becomes the larger of itself and the dev NDCG; `last_ndcg` is that NDCG; the window lists are empty; earlier updates are kept |
| `Episode.StepSpec` | ReInfoSelect/train_bert.py:68-116 | one step preserves the alignment of the three window lists |
| `Episode.RunSteps` | ReInfoSelect/train_bert.py:60-116 | the steps of an epoch keep the window lists aligned |
| `Episode.RunEpochs` | ReInfoSelect/train_bert.py:48-116 | the loop state after any number of epochs has aligned window lists |
| `Episode.Train` | ReInfoSelect/train_bert.py:46-116 | the nested loops end with the `best_ndcg` and the sequence of policy updates of the `RunEpochs` specification |
| `Episode.MaxOfSpec` | ReInfoSelect/train_bert.py:52-53 | the running maximum is at least the initial value and every element, and equals one of them |
| `Episode.MaxOfAppend` | ReInfoSelect/train_bert.py:88-89 | the running maximum over `xs + ys` continues the one over `xs` |
| `Episode.RunStepsBest` | ReInfoSelect/train_bert.py:87-89 | over an epoch's steps, `best_ndcg` is the maximum of its start value and the NDCG of every kept step |
| `Episode.BestIsMaxObserved` | ReInfoSelect/train_bert.py:47-89 | after any number of epochs `best_ndcg` is the maximum of 0 and every dev NDCG measured |
| `Episode.DeltasSnoc` | ReInfoSelect/train_bert.py:90-91 | one more measurement adds its gain over the previous one and becomes the latest |
| `Episode.DeltasTelescope` | ReInfoSelect/train_bert.py:90-92 | the rewards of successive gains add up to the latest NDCG minus the first |
| `Episode.WindowsSnoc` | ReInfoSelect/train_bert.py:94-116 | one more update adds its window to the rewards consumed |
| `Episode.StepTrace` | ReInfoSelect/train_bert.py:68-116 | a skipped step changes nothing; a kept step sets `last_ndcg` and appends its gain to the pending window, or moves it with the window into one new update |
| `Episode.RewardsTrace` | ReInfoSelect/train_bert.py:54-116 | over an epoch, the update windows plus the pending window are, in order, exactly the gains of the kept steps; `last_ndcg` is the latest measurement |
| `Episode.EpochRewardsSum` | ReInfoSelect/train_bert.py:51-92 | an epoch's rewards add up to the last kept step's NDCG minus the NDCG measured at its start |
| `Episode.ModStep` | ReInfoSelect/train_bert.py:68 | between two multiples of T the remainder of the step index goes up by one per step |
| `Episode.StepFires` | ReInfoSelect/train_bert.py:68-116 | a step that is a multiple of T is never skipped and fires an update of 1 to `abs(T)` rewards, which clears the window |
| `Episode.WindowBoundStep` | ReInfoSelect/train_bert.py:68 | away from multiples of T, the window bound grows by one per step |
| `Episode.StepQuiet` | ReInfoSelect/train_bert.py:68-94 | a step that is not a multiple of T fires no update, and the window stays within its bound |
| `Episode.StepSchedule` | ReInfoSelect/train_bert.py:68-116 | one step fires an update exactly when its index is a multiple of T, with 1 to `abs(T)` rewards |
| `Episode.UpdateSchedule` | ReInfoSelect/train_bert.py:60-116 | over an epoch, updates fire at exactly the step indices that are multiples of T, in order; each consumes 1 to `abs(T)` rewards; the pending window never reaches `abs(T)` |

## Left out

- NDCG and ERR (`metrics`), the ranker, the policy network, `Categorical`
  sampling and all of `torch`: each training step arrives as data (its
  action sum, its keep and discard log-probabilities of an opaque type, and
  the NDCG measured after it), and the policy loss is represented by the
  routed log-probabilities and returns it is built from. Backpropagation
  and the optimiser steps are not modelled.
- `torch.tensor`: batches are modelled as lists of rows.
- MakeTrainBatches, MakeDevBatches: `pad_sequence` is not modelled. For `max_seq_len >= 0` every row of a column already has the same length (`PaddedShape`), so it changes nothing. For a negative `max_seq_len` the document rows keep Python's slice length `max(0, n + max_seq_len)` and may differ within a batch; `pad_sequence` would right-pad them with 0, and the model leaves them as they are.
- Discounted, EpochRewardsSum, Step.ndcg, Entry.score: Python floats are modelled as exact `real` numbers. There is no rounding, no NaN and no infinity. The reward `ndcg - last_ndcg`, the return `rewards[ri] + gamma * R`, the comparisons `ndcg > best_ndcg` and `R > 0`, and the sort by score are exact here. In IEEE doubles, rounding can change a sum, or flip the sign test of a return near 0, and a NaN breaks the comparisons and the sort. So the telescoping sum (`EpochRewardsSum`, `DeltasTelescope`), the closed form (`DiscountedClosedForm`) and the sign routing (`Routed`) hold in the program only up to rounding.
- File I/O: a file is the list of its lines; `args.res` is the returned
  list of run lines.
- `np.random.shuffle`: the shuffled order is a parameter, required to be a
  permutation of `0..n-1`.
- The stemmer (`krovetzstemmer`) is a function parameter; the NLTK stopword
  list is a set parameter.
- `float(s[5])` in `read_dev_to_features`: the baseline score is kept as its
  text, so a malformed float does not raise `ValueError` here; `str()` of a
  float score in the run line is a formatting-function parameter.
- ParseInt, ParseDecimal, ParseIntRoundTrip, IntToStringParses, DevLine: CPython's integer-string conversion limit (`sys.int_max_str_digits`, 4300 digits by default since 3.11 and the 2022 security releases of 3.7–3.10) is not modelled. There, `int()` of a literal of more than 4300 digits, and `str(i)` for `|i| >= 10^4300`, raise `ValueError`. The model accepts literals and integers of any length, as interpreters without the limit do, so a dev line whose field 2 has 4301 digits parses here.
- `int()` accepts only ASCII digits here; Python also accepts other Unicode
  decimal digits.
- `str.strip` is modelled for `'\n'`, the one argument the code passes. The same stripping function also models the whitespace `str.split()` skips (`str.isspace()`) and the whitespace `int()` trims around a literal (`IsIntSpace`). These are two different sets: `int()` does not trim U+001C–U+001F.
- Error values carry only the exception type, not its message or line.
- `T == 0`, which raises `ZeroDivisionError` at `step % args.T`, is excluded
  by a precondition.
- `gamma` (unbound inside `train`) and `pos_idx`, `pos_len` (unbound at the
  policy call) are taken as parameters or left to the step data.
- `train_dataloader` is a generator: reading the file and the `range` error
  for `batch_size == 0` happen on first iteration. The model returns the
  whole batch list at once, and so does not capture that laziness.
- `bert_train_dataloader` and the BERT-specific batch tuple used by `train`
  are not part of this model; `train` consumes only per-step data.
- `main`, argument parsing, model construction and logging are not part of
  this model.

=== FILE: common.dfy ===
/** Shared value types: optional values, results carrying the Python
    exception a failing operation raises, and small numeric helpers. */
module Common {

  datatype Option<T> = None | Some(value: T)

  /** The exceptions the modelled code can raise. */
  datatype PyError =
    | IndexError         // a list index past the end (too few tab fields)
    | ValueError         // int() of a non-integer text; range() with step 0
    | KeyError           // a vocabulary lookup of '<UNK>' that is not there

  datatype Result<T> = Ok(value: T) | Err(error: PyError)

  function Min(a: int, b: int): int { if a <= b then a else b }

  function Max(a: int, b: int): int { if a <= b then b else a }

  /** Concatenation of a sequence of sequences. */
  function Flatten<T>(xss: seq<seq<T>>): seq<T>
  {
    if xss == [] then [] else xss[0] + Flatten(xss[1..])
  }

  lemma {:induction false} FlattenAppend<T>(xss: seq<seq<T>>, yss: seq<seq<T>>)
    ensures Flatten(xss + yss) == Flatten(xss) + Flatten(yss)
  {
    if xss == [] {
      assert xss + yss == yss;
    } else {
      assert (xss + yss)[1..] == xss[1..] + yss;
      FlattenAppend(xss[1..], yss);
    }
  }
}

=== FILE: dataloader.dfy ===
/** The text-encoding and batching pipeline of dataloaders/dataloader.py:
    stopword removal, stemming, vocabulary lookup, truncation and padding
    of each tab-separated line, and the slicing of the examples into
    training batches (in a shuffled order) and dev batches (in file order). */
module DataLoader {
  import opened Common
  import opened PyText

  /** Queries are always cut and padded to this many tokens. */
  const QueryCap: int := 20
  const Pad: string := "<PAD>"
  const Unk: string := "<UNK>"

  type Vocab = map<string, int>

  // ---------------------------------------------------------------------
  // stopword_removal

  /** The tokens that are not stopwords, in input order. */
  function Filtered(toks: seq<string>, stopwords: set<string>): seq<string>
  {
    if toks == [] then []
    else
      var last := toks[|toks| - 1];
      Filtered(toks[..|toks| - 1], stopwords) + (if last in stopwords then [] else [last])
  }

  method StopwordRemoval(toks: seq<string>, stopwords: set<string>) returns (filtered: seq<string>)
    ensures filtered == Filtered(toks, stopwords)
  {
    filtered := [];
    for i := 0 to |toks|
      invariant filtered == Filtered(toks[..i], stopwords)
    {
      assert toks[..i + 1][..i] == toks[..i];
      if toks[i] !in stopwords {
        filtered := filtered + [toks[i]];
      }
    }
    assert toks[..|toks|] == toks;
  }

  /** No stopword survives, and every other token survives exactly as often
      as it occurs in the input. */
  lemma {:induction false} FilteredKeepsExactly(toks: seq<string>, stopwords: set<string>)
    ensures forall i :: 0 <= i < |Filtered(toks, stopwords)| ==> Filtered(toks, stopwords)[i] !in stopwords
    ensures forall w :: multiset(Filtered(toks, stopwords))[w] == if w in stopwords then 0 else multiset(toks)[w]
  {
    if toks != [] {
      var init, last := toks[..|toks| - 1], toks[|toks| - 1];
      FilteredKeepsExactly(init, stopwords);
      assert toks == init + [last];
      assert multiset(toks) == multiset(init) + multiset{last};
    }
  }

  /** Filtering keeps the original order: filtering a concatenation is the
      concatenation of the filtered parts. */
  lemma {:induction false} FilteredConcat(a: seq<string>, b: seq<string>, stopwords: set<string>)
    ensures Filtered(a + b, stopwords) == Filtered(a, stopwords) + Filtered(b, stopwords)
    decreases |b|
  {
    if b == [] {
      assert a + b == a;
    } else {
      var init, last := b[..|b| - 1], b[|b| - 1];
      assert (a + b)[..|a + b| - 1] == a + init;
      assert (a + b)[|a + b| - 1] == last;
      FilteredConcat(a, init, stopwords);
    }
  }

  // ---------------------------------------------------------------------
  // stemming (the stemmer itself is a parameter)

  function Stemmed(toks: seq<string>, stem: string -> string): seq<string>
  {
    seq(|toks|, i requires 0 <= i < |toks| => stem(toks[i]))
  }

  method Stemming(toks: seq<string>, stem: string -> string) returns (stemmed: seq<string>)
    ensures |stemmed| == |toks|
    ensures forall i :: 0 <= i < |toks| ==> stemmed[i] == stem(toks[i])
  {
    stemmed := [];
    for i := 0 to |toks|
      invariant |stemmed| == i
      invariant forall k :: 0 <= k < i ==> stemmed[k] == stem(toks[k])
    {
      stemmed := stemmed + [stem(toks[i])];
    }
  }

  // ---------------------------------------------------------------------
  // tok2idx

  /** Whether tok2idx can map `tok`: it is in the vocabulary or '<UNK>' is. */
  predicate Known(vocab: Vocab, tok: string)
  {
    tok in vocab || Unk in vocab
  }

  /** The id tok2idx gives a known token: its own, else the id of '<UNK>'. */
  function Lookup(vocab: Vocab, tok: string): int
    requires Known(vocab, tok)
  {
    if tok in vocab then vocab[tok] else vocab[Unk]
  }

  /** tok2idx as a whole: one id per token, or a KeyError when some token
      is missing and '<UNK>' is missing too. */
  function Indexed(toks: seq<string>, vocab: Vocab): Result<seq<int>>
  {
    if forall i :: 0 <= i < |toks| ==> Known(vocab, toks[i]) then
      Ok(seq(|toks|, i requires 0 <= i < |toks| => if Known(vocab, toks[i]) then Lookup(vocab, toks[i]) else 0))
    else Err(KeyError)
  }

  method Tok2Idx(toks: seq<string>, vocab: Vocab) returns (r: Result<seq<int>>)
    ensures r == Indexed(toks, vocab)
  {
    var ids := [];
    for i := 0 to |toks|
      invariant |ids| == i
      invariant forall k :: 0 <= k < i ==> Known(vocab, toks[k]) && ids[k] == Lookup(vocab, toks[k])
    {
      if toks[i] in vocab {
        ids := ids + [vocab[toks[i]]];
      } else if Unk in vocab {
        ids := ids + [vocab[Unk]];
      } else {
        assert !Known(vocab, toks[i]);
        return Err(KeyError);
      }
    }
    assert forall k :: 0 <= k < |toks| ==> Known(vocab, toks[k]);
    assert Indexed(toks, vocab).Ok?;
    assert |Indexed(toks, vocab).value| == |ids|;
    assert forall k :: 0 <= k < |toks| ==> ids[k] == Indexed(toks, vocab).value[k];
    assert ids == Indexed(toks, vocab).value;
    return Ok(ids);
  }

  // ---------------------------------------------------------------------
  // truncation toks[:cap] and padding with '<PAD>'

  /** The length of toks[:cap] for a list of length n (Python slice
      semantics: a negative cap counts from the end). */
  function SliceStop(n: nat, cap: int): (len: nat)
    ensures len <= n
    ensures cap >= 0 ==> len == Min(n, cap)
  {
    if cap >= 0 then Min(n, cap) else Max(0, n + cap)
  }

  /** The first SliceStop tokens, then '<PAD>' up to the cap. */
  function Padded(toks: seq<string>, cap: int): seq<string>
  {
    var len := SliceStop(|toks|, cap);
    toks[..len] + seq(Max(cap - len, 0), _ => Pad)
  }

  method TruncatePad(toks: seq<string>, cap: int) returns (padded: seq<string>, len: nat)
    ensures len == SliceStop(|toks|, cap)
    ensures |padded| == Max(cap, len)
    ensures padded[..len] == toks[..len]
    ensures forall k :: len <= k < |padded| ==> padded[k] == Pad
    ensures padded == Padded(toks, cap)
  {
    var stop := if cap >= 0 then Min(|toks|, cap) else Max(0, |toks| + cap);
    padded := toks[..stop];
    len := |padded|;
    while |padded| < cap
      invariant len <= |padded| <= Max(cap, len)
      invariant padded[..len] == toks[..len]
      invariant forall k :: len <= k < |padded| ==> padded[k] == Pad
      decreases cap - |padded|
    {
      padded := padded + [Pad];
    }
  }

  /** For a non-negative cap: exactly `cap` entries, the true length is
      min(token count, cap), the first `len` entries are the first tokens and
      every later entry is '<PAD>'. */
  lemma PaddedShape(toks: seq<string>, cap: int)
    requires cap >= 0
    ensures var len := SliceStop(|toks|, cap);
      && len == Min(|toks|, cap)
      && |Padded(toks, cap)| == cap
      && Padded(toks, cap)[..len] == toks[..len]
      && forall k :: len <= k < cap ==> Padded(toks, cap)[k] == Pad
  {
    var len := SliceStop(|toks|, cap);
    var p := Padded(toks, cap);
    assert p[..len] == toks[..len];
  }

  // ---------------------------------------------------------------------
  // One line of a training or dev file

  datatype TrainFeatures = TrainFeatures(
    queryIdx: seq<int>, posIdx: seq<int>, negIdx: seq<int>,
    queryLen: nat, posLen: nat, negLen: nat)

  datatype DevFeatures = DevFeatures(
    queryId: string, docId: string, qdScore: int, rawScore: string,
    queryIdx: seq<int>, docIdx: seq<int>, queryLen: nat, docLen: nat)

  /** line.strip('\n').split('\t') */
  function Fields(line: string): seq<string>
  {
    SplitOn(Strip(line, Newline), '\t')
  }

  /** A text field after split(), stopword removal and stemming. */
  function Tokens(text: string, stopwords: set<string>, stem: string -> string): seq<string>
  {
    Stemmed(Filtered(SplitWords(text), stopwords), stem)
  }

  /** Truncate, pad and look up. */
  function Encoded(toks: seq<string>, cap: int, vocab: Vocab): Result<seq<int>>
  {
    Indexed(Padded(toks, cap), vocab)
  }

  /** What read_train_to_features makes of one line. */
  function TrainLine(line: string, stopwords: set<string>, stem: string -> string, vocab: Vocab, maxSeqLen: int)
    : (r: Result<TrainFeatures>)
    ensures |Fields(line)| < 3 <==> r == Err(IndexError)
    ensures r.Err? ==> r.error == IndexError || r.error == KeyError
  {
    TrainRecord(Fields(line), stopwords, stem, vocab, maxSeqLen)
  }

  /** The training features of a line already split into tab fields:
      query, positive document, negative document. */
  function TrainRecord(s: seq<string>, stopwords: set<string>, stem: string -> string, vocab: Vocab, maxSeqLen: int)
    : Result<TrainFeatures>
  {
    if |s| < 3 then Err(IndexError)
    else TrainEncode(Tokens(s[0], stopwords, stem), Tokens(s[1], stopwords, stem), Tokens(s[2], stopwords, stem),
                     vocab, maxSeqLen)
  }

  /** The training features of the three token lists. */
  function TrainEncode(q: seq<string>, p: seq<string>, n: seq<string>, vocab: Vocab, maxSeqLen: int)
    : Result<TrainFeatures>
  {
    var qi := Encoded(q, QueryCap, vocab);
    var pi := Encoded(p, maxSeqLen, vocab);
    var ni := Encoded(n, maxSeqLen, vocab);
    if qi.Err? || pi.Err? || ni.Err? then Err(KeyError)
    else Ok(TrainFeatures(qi.value, pi.value, ni.value,
                          SliceStop(|q|, QueryCap), SliceStop(|p|, maxSeqLen), SliceStop(|n|, maxSeqLen)))
  }

  /** What read_dev_to_features makes of one line. */
  function DevLine(line: string, stopwords: set<string>, stem: string -> string, vocab: Vocab, maxSeqLen: int)
    : (r: Result<DevFeatures>)
    ensures |Fields(line)| < 3 ==> r == Err(IndexError)
    ensures r.Ok? ==> |Fields(line)| >= 6 && ParseInt(Fields(line)[2]) == Some(r.value.qdScore)
  {
    DevRecord(Fields(line), stopwords, stem, vocab, maxSeqLen)
  }

  /** The dev features of a line already split into tab fields: query,
      document, qd_score, query id, document id, baseline score (kept as
      text). */
  function DevRecord(s: seq<string>, stopwords: set<string>, stem: string -> string, vocab: Vocab, maxSeqLen: int)
    : Result<DevFeatures>
  {
    if |s| < 3 then Err(IndexError) else DevFields(s, ParseInt(s[2]), stopwords, stem, vocab, maxSeqLen)
  }

  /** DevRecord once field 2 has been given to int(). */
  function DevFields(s: seq<string>, qd: Option<int>, stopwords: set<string>, stem: string -> string, vocab: Vocab,
                     maxSeqLen: int)
    : (r: Result<DevFeatures>)
    requires |s| >= 3
    ensures qd.None? <==> r == Err(ValueError)
    ensures r.Ok? ==> |s| >= 6 && qd == Some(r.value.qdScore) && r.value.queryId == s[3] && r.value.docId == s[4]
  {
    match qd
    case None => Err(ValueError)
    case Some(score) =>
      if |s| < 6 then Err(IndexError)
      else DevEncode(s[3], s[4], score, s[5], Tokens(s[0], stopwords, stem), Tokens(s[1], stopwords, stem),
                     vocab, maxSeqLen)
  }

  /** The dev features of the identifying fields and the two token lists. */
  function DevEncode(queryId: string, docId: string, score: int, raw: string, q: seq<string>, d: seq<string>,
                     vocab: Vocab, maxSeqLen: int)
    : Result<DevFeatures>
  {
    var qi := Encoded(q, QueryCap, vocab);
    var di := Encoded(d, maxSeqLen, vocab);
    if qi.Err? || di.Err? then Err(KeyError)
    else Ok(DevFeatures(queryId, docId, score, raw, qi.value, di.value,
                        SliceStop(|q|, QueryCap), SliceStop(|d|, maxSeqLen)))
  }

  /** Tokenise a text field with the imperative helpers. */
  method TokensOf(text: string, stopwords: set<string>, stem: string -> string) returns (toks: seq<string>)
    ensures toks == Tokens(text, stopwords, stem)
  {
    var words := SplitWords(text);
    var kept := StopwordRemoval(words, stopwords);
    toks := Stemming(kept, stem);
  }

  /** Truncate, pad and look up with the imperative helpers; the true length
      is returned beside the ids. */
  method EncodeOf(toks: seq<string>, cap: int, vocab: Vocab) returns (r: Result<seq<int>>, len: nat)
    ensures r == Encoded(toks, cap, vocab)
    ensures len == SliceStop(|toks|, cap)
  {
    var padded;
    padded, len := TruncatePad(toks, cap);
    r := Tok2Idx(padded, vocab);
  }

  method ReadTrainLine(line: string, stopwords: set<string>, stem: string -> string, vocab: Vocab, maxSeqLen: int)
    returns (r: Result<TrainFeatures>)
    ensures r == TrainLine(line, stopwords, stem, vocab, maxSeqLen)
  {
    var s := SplitOn(Strip(line, Newline), '\t');
    if |s| < 3 {
      return Err(IndexError);
    }
    var q := TokensOf(s[0], stopwords, stem);
    var p := TokensOf(s[1], stopwords, stem);
    var n := TokensOf(s[2], stopwords, stem);
    var qi, qLen := EncodeOf(q, QueryCap, vocab);
    var pi, pLen := EncodeOf(p, maxSeqLen, vocab);
    var ni, nLen := EncodeOf(n, maxSeqLen, vocab);
    if qi.Err? || pi.Err? || ni.Err? {
      return Err(KeyError);
    }
    r := Ok(TrainFeatures(qi.value, pi.value, ni.value, qLen, pLen, nLen));
  }

  method ReadDevLine(line: string, stopwords: set<string>, stem: string -> string, vocab: Vocab, maxSeqLen: int)
    returns (r: Result<DevFeatures>)
    ensures r == DevLine(line, stopwords, stem, vocab, maxSeqLen)
  {
    var s := SplitOn(Strip(line, Newline), '\t');
    ghost var spec := DevLine(line, stopwords, stem, vocab, maxSeqLen);
    assert spec == DevRecord(s, stopwords, stem, vocab, maxSeqLen);
    if |s| < 3 {
      return Err(IndexError);
    }
    var qd := ParseInt(s[2]);
    assert spec == DevFields(s, qd, stopwords, stem, vocab, maxSeqLen);
    if qd.None? {
      return Err(ValueError);
    }
    if |s| < 6 {
      return Err(IndexError);
    }
    var q := TokensOf(s[0], stopwords, stem);
    var d := TokensOf(s[1], stopwords, stem);
    assert spec == DevEncode(s[3], s[4], qd.value, s[5], q, d, vocab, maxSeqLen);
    var qi, qLen := EncodeOf(q, QueryCap, vocab);
    var di, dLen := EncodeOf(d, maxSeqLen, vocab);
    if qi.Err? || di.Err? {
      return Err(KeyError);
    }
    r := Ok(DevFeatures(s[3], s[4], qd.value, s[5], qi.value, di.value, qLen, dLen));
  }

  /** `ids` encodes `toks` cut and padded to `cap`: the true length is that
      of toks[:cap], and entry i is the id of token i below the true length
      and the id of '<PAD>' from there on. */
  ghost predicate Encodes(ids: seq<int>, len: nat, toks: seq<string>, cap: int, vocab: Vocab)
  {
    && len == SliceStop(|toks|, cap)
    && |ids| == Max(cap, len)
    && forall i :: 0 <= i < |ids| ==>
         var tok := if i < len then toks[i] else Pad;
         Known(vocab, tok) && ids[i] == Lookup(vocab, tok)
  }

  lemma EncodedSpec(toks: seq<string>, cap: int, vocab: Vocab)
    ensures Encoded(toks, cap, vocab).Ok? ==>
      Encodes(Encoded(toks, cap, vocab).value, SliceStop(|toks|, cap), toks, cap, vocab)
  {
    var len := SliceStop(|toks|, cap);
    var p := Padded(toks, cap);
    var pads := seq(Max(cap - len, 0), _ => Pad);
    assert p == toks[..len] + pads;
    assert |p| == Max(cap, len);
    forall i | 0 <= i < |p| ensures p[i] == if i < len then toks[i] else Pad {
      if i < len {
        assert p[i] == toks[..len][i];
      } else {
        assert p[i] == pads[i - len];
      }
    }
    var r := Indexed(p, vocab);
    if r.Ok? {
      var ids := r.value;
      assert |ids| == |p|;
      forall i | 0 <= i < |ids|
        ensures var tok := if i < len then toks[i] else Pad; Known(vocab, tok) && ids[i] == Lookup(vocab, tok)
      {
        assert Known(vocab, p[i]);
        assert ids[i] == Lookup(vocab, p[i]);
      }
      assert Encoded(toks, cap, vocab) == r;
      assert Encodes(ids, len, toks, cap, vocab);
    }
  }

  /** With '<UNK>' in the vocabulary every token has an id. */
  lemma EncodedTotal(toks: seq<string>, cap: int, vocab: Vocab)
    requires Unk in vocab
    ensures Encoded(toks, cap, vocab).Ok?
  {
    var p := Padded(toks, cap);
    assert forall i :: 0 <= i < |p| ==> Known(vocab, p[i]);
  }

  /** Encoded training features: the query is 20 ids long, documents are
      max_seq_len ids long (for a non-negative max_seq_len), each true length
      is min(token count, cap), and each row is the ids of the first tokens
      followed by the id of '<PAD>'. */
  lemma TrainEncodeSpec(q: seq<string>, p: seq<string>, n: seq<string>, vocab: Vocab, maxSeqLen: int)
    requires TrainEncode(q, p, n, vocab, maxSeqLen).Ok?
    ensures var f := TrainEncode(q, p, n, vocab, maxSeqLen).value;
      && Encodes(f.queryIdx, f.queryLen, q, QueryCap, vocab)
      && Encodes(f.posIdx, f.posLen, p, maxSeqLen, vocab)
      && Encodes(f.negIdx, f.negLen, n, maxSeqLen, vocab)
      && |f.queryIdx| == QueryCap && f.queryLen <= QueryCap
      && (maxSeqLen >= 0 ==> |f.posIdx| == maxSeqLen && |f.negIdx| == maxSeqLen)
  {
    EncodedSpec(q, QueryCap, vocab);
    EncodedSpec(p, maxSeqLen, vocab);
    EncodedSpec(n, maxSeqLen, vocab);
  }

  /** With '<UNK>' in the vocabulary the encoding of any tokens succeeds. */
  lemma TrainEncodeTotal(q: seq<string>, p: seq<string>, n: seq<string>, vocab: Vocab, maxSeqLen: int)
    requires Unk in vocab
    ensures TrainEncode(q, p, n, vocab, maxSeqLen).Ok?
  {
    EncodedTotal(q, QueryCap, vocab);
    EncodedTotal(p, maxSeqLen, vocab);
    EncodedTotal(n, maxSeqLen, vocab);
  }

  /** A parsed training line has three tab fields and holds the encoding of
      each field's tokens. */
  lemma TrainRecordShape(s: seq<string>, stopwords: set<string>, stem: string -> string, vocab: Vocab, maxSeqLen: int)
    requires TrainRecord(s, stopwords, stem, vocab, maxSeqLen).Ok?
    ensures |s| >= 3
    ensures var f := TrainRecord(s, stopwords, stem, vocab, maxSeqLen).value;
      && Encodes(f.queryIdx, f.queryLen, Tokens(s[0], stopwords, stem), QueryCap, vocab)
      && Encodes(f.posIdx, f.posLen, Tokens(s[1], stopwords, stem), maxSeqLen, vocab)
      && Encodes(f.negIdx, f.negLen, Tokens(s[2], stopwords, stem), maxSeqLen, vocab)
  {
    TrainEncodeSpec(Tokens(s[0], stopwords, stem), Tokens(s[1], stopwords, stem), Tokens(s[2], stopwords, stem),
                    vocab, maxSeqLen);
  }

  /** A training line with fewer than three tab fields raises IndexError;
      with three and '<UNK>' in the vocabulary it never fails. */
  lemma TrainRecordTotal(s: seq<string>, stopwords: set<string>, stem: string -> string, vocab: Vocab, maxSeqLen: int)
    requires Unk in vocab
    ensures |s| < 3 <==> TrainRecord(s, stopwords, stem, vocab, maxSeqLen) == Err(IndexError)
    ensures |s| >= 3 <==> TrainRecord(s, stopwords, stem, vocab, maxSeqLen).Ok?
  {
    if |s| >= 3 {
      TrainEncodeTotal(Tokens(s[0], stopwords, stem), Tokens(s[1], stopwords, stem), Tokens(s[2], stopwords, stem),
                       vocab, maxSeqLen);
    }
  }

  /** The errors of a dev line, in the order Python raises them: fewer than
      three tab fields is an IndexError, a field 2 that int() rejects a
      ValueError, and fewer than six fields an IndexError. */
  lemma DevRecordErrors(s: seq<string>, stopwords: set<string>, stem: string -> string, vocab: Vocab, maxSeqLen: int)
    ensures var r := DevRecord(s, stopwords, stem, vocab, maxSeqLen);
      && (|s| < 3 ==> r == Err(IndexError))
      && (|s| >= 3 && ParseInt(s[2]).None? ==> r == Err(ValueError))
      && (3 <= |s| < 6 && ParseInt(s[2]).Some? ==> r == Err(IndexError))
  {
  }

  /** Encoded dev features: the identifying fields are kept as given, and
      the two token rows are encoded as for training. */
  lemma DevEncodeSpec(queryId: string, docId: string, score: int, raw: string, q: seq<string>, d: seq<string>,
                      vocab: Vocab, maxSeqLen: int)
    requires DevEncode(queryId, docId, score, raw, q, d, vocab, maxSeqLen).Ok?
    ensures var f := DevEncode(queryId, docId, score, raw, q, d, vocab, maxSeqLen).value;
      && f.qdScore == score && f.queryId == queryId && f.docId == docId && f.rawScore == raw
      && Encodes(f.queryIdx, f.queryLen, q, QueryCap, vocab)
      && Encodes(f.docIdx, f.docLen, d, maxSeqLen, vocab)
      && |f.queryIdx| == QueryCap && (maxSeqLen >= 0 ==> |f.docIdx| == maxSeqLen)
  {
    EncodedSpec(q, QueryCap, vocab);
    EncodedSpec(d, maxSeqLen, vocab);
  }

  lemma DevEncodeTotal(queryId: string, docId: string, score: int, raw: string, q: seq<string>, d: seq<string>,
                       vocab: Vocab, maxSeqLen: int)
    requires Unk in vocab
    ensures DevEncode(queryId, docId, score, raw, q, d, vocab, maxSeqLen).Ok?
  {
    EncodedTotal(q, QueryCap, vocab);
    EncodedTotal(d, maxSeqLen, vocab);
  }

  /** With '<UNK>' in the vocabulary, a dev line with six tab fields and an
      integer in field 2 never fails. */
  lemma DevRecordTotal(s: seq<string>, stopwords: set<string>, stem: string -> string, vocab: Vocab, maxSeqLen: int)
    requires |s| >= 6 && ParseInt(s[2]).Some? && Unk in vocab
    ensures DevRecord(s, stopwords, stem, vocab, maxSeqLen).Ok?
  {
    var qd := ParseInt(s[2]);
    assert DevRecord(s, stopwords, stem, vocab, maxSeqLen) == DevFields(s, qd, stopwords, stem, vocab, maxSeqLen);
    DevEncodeTotal(s[3], s[4], qd.value, s[5], Tokens(s[0], stopwords, stem), Tokens(s[1], stopwords, stem),
                   vocab, maxSeqLen);
  }

  /** A parsed dev line: qd_score is int(field 2), the query id is field 3,
      the document id field 4, the baseline score field 5, and the two token
      rows are encoded as for training. */
  lemma DevRecordFields(s: seq<string>, stopwords: set<string>, stem: string -> string, vocab: Vocab, maxSeqLen: int)
    requires DevRecord(s, stopwords, stem, vocab, maxSeqLen).Ok?
    ensures |s| >= 6 && ParseInt(s[2]).Some?
    ensures var f := DevRecord(s, stopwords, stem, vocab, maxSeqLen).value;
      && f.qdScore == ParseInt(s[2]).value
      && f.queryId == s[3] && f.docId == s[4] && f.rawScore == s[5]
      && Encodes(f.queryIdx, f.queryLen, Tokens(s[0], stopwords, stem), QueryCap, vocab)
      && Encodes(f.docIdx, f.docLen, Tokens(s[1], stopwords, stem), maxSeqLen, vocab)
  {
    var qd := ParseInt(s[2]);
    assert DevRecord(s, stopwords, stem, vocab, maxSeqLen) == DevFields(s, qd, stopwords, stem, vocab, maxSeqLen);
    DevEncodeSpec(s[3], s[4], qd.value, s[5], Tokens(s[0], stopwords, stem), Tokens(s[1], stopwords, stem),
                  vocab, maxSeqLen);
  }

  /** A field that can be written on a line of the tab-separated format. */
  predicate PlainField(f: string)
  {
    '\t' !in f && '\n' !in f
  }

  /** The text of an integer holds no tab and no newline. */
  lemma IntToStringPlain(i: int)
    ensures '\t' !in IntToString(i) && '\n' !in IntToString(i)
  {
    var t := IntToString(i);
    var m: nat := if i < 0 then -i else i;
    assert t == (if i < 0 then "-" else "") + NatToString(m);
    assert forall k :: 0 <= k < |t| ==> t[k] == '-' || IsDigit(t[k]);
  }

  /** Reading back the tab fields of a line written as the fields joined by
      tabs and ended by a newline gives the fields (at least two fields, none
      holding a tab or a newline). */
  lemma FieldsOfJoin(fields: seq<string>)
    requires |fields| >= 2
    requires forall i :: 0 <= i < |fields| ==> '\t' !in fields[i] && '\n' !in fields[i]
    ensures Fields(Join(fields, '\t') + "\n") == fields
  {
    SplitLineJoin(fields, '\t');
  }

  /** A line whose tab fields are known, with an integer in field 2. */
  lemma DevLineOf(line: string, fields: seq<string>, qd: int,
                  stopwords: set<string>, stem: string -> string, vocab: Vocab, maxSeqLen: int)
    requires Fields(line) == fields && |fields| >= 6 && ParseInt(fields[2]) == Some(qd) && Unk in vocab
    ensures var r := DevLine(line, stopwords, stem, vocab, maxSeqLen);
      r.Ok? && r.value.qdScore == qd && r.value.queryId == fields[3] && r.value.docId == fields[4]
      && r.value.rawScore == fields[5]
  {
    DevRecordTotal(fields, stopwords, stem, vocab, maxSeqLen);
    DevRecordFields(fields, stopwords, stem, vocab, maxSeqLen);
  }

  /** Writing the six fields of a dev example (query, document, the
      qd_score as an integer text, query id, document id, baseline score) as
      a tab-separated line and reading the line back gives the qd_score, the
      query id, the document id and the baseline-score text back (fields
      free of tabs and newlines, a vocabulary with '<UNK>'). */
  lemma DevLineRoundTrip(fields: seq<string>, qd: int,
                         stopwords: set<string>, stem: string -> string, vocab: Vocab, maxSeqLen: int)
    requires |fields| == 6 && fields[2] == IntToString(qd)
    requires forall i :: 0 <= i < 6 && i != 2 ==> PlainField(fields[i])
    requires Unk in vocab
    ensures var r := DevLine(Join(fields, '\t') + "\n", stopwords, stem, vocab, maxSeqLen);
      && r.Ok? && r.value.qdScore == qd
      && r.value.queryId == fields[3] && r.value.docId == fields[4] && r.value.rawScore == fields[5]
  {
    var line := Join(fields, '\t') + "\n";
    assert Fields(line) == fields by {
      IntToStringPlain(qd);
      forall i | 0 <= i < |fields| ensures '\t' !in fields[i] && '\n' !in fields[i] {
        if i != 2 {
          assert PlainField(fields[i]);
        }
      }
      FieldsOfJoin(fields);
    }
    assert ParseInt(fields[2]) == Some(qd) by {
      IntToStringParses(qd);
    }
    DevLineOf(line, fields, qd, stopwords, stem, vocab, maxSeqLen);
  }

  // ---------------------------------------------------------------------
  // Reading a whole file: every line in order, stopping at the first
  // malformed one

  function ParseAll<T>(lines: seq<string>, parse: string -> Result<T>): (r: Result<seq<T>>)
    ensures r.Ok? ==> |r.value| == |lines|
  {
    if lines == [] then Ok([])
    else match ParseAll(lines[..|lines| - 1], parse)
      case Err(e) => Err(e)
      case Ok(done) =>
        match parse(lines[|lines| - 1])
        case Err(e) => Err(e)
        case Ok(x) => Ok(done + [x])
  }

  /** Reading succeeds iff every line parses, and then holds one feature per
      line in file order; otherwise it fails with the error of the first
      line that does not parse. */
  lemma {:induction false} ParseAllSpec<T>(lines: seq<string>, parse: string -> Result<T>)
    ensures var r := ParseAll(lines, parse);
      && (r.Ok? <==> forall i :: 0 <= i < |lines| ==> parse(lines[i]).Ok?)
      && (r.Ok? ==> forall i :: 0 <= i < |lines| ==> r.value[i] == parse(lines[i]).value)
      && (r.Err? ==> exists j :: 0 <= j < |lines| && parse(lines[j]) == Err(r.error)
                                && forall i :: 0 <= i < j ==> parse(lines[i]).Ok?)
  {
    if lines != [] {
      var init := lines[..|lines| - 1];
      ParseAllSpec(init, parse);
      assert forall i :: 0 <= i < |init| ==> init[i] == lines[i];
    }
  }

  lemma {:induction false} ParseAllSticky<T>(lines: seq<string>, k: nat, parse: string -> Result<T>)
    requires k <= |lines|
    requires ParseAll(lines[..k], parse).Err?
    ensures ParseAll(lines, parse) == ParseAll(lines[..k], parse)
    decreases |lines|
  {
    if k == |lines| {
      assert lines[..k] == lines;
    } else {
      var init := lines[..|lines| - 1];
      assert init[..k] == lines[..k];
      ParseAllSticky(init, k, parse);
    }
  }

  /** One more line: its value is appended, or its error ends the reading. */
  lemma ParseAllStep<T>(lines: seq<string>, i: nat, parse: string -> Result<T>, done: seq<T>)
    requires i < |lines| && ParseAll(lines[..i], parse) == Ok(done)
    ensures ParseAll(lines[..i + 1], parse)
         == if parse(lines[i]).Ok? then Ok(done + [parse(lines[i]).value]) else Err(parse(lines[i]).error)
  {
    assert lines[..i + 1][..i] == lines[..i];
  }

  function TrainParser(stopwords: set<string>, stem: string -> string, vocab: Vocab, maxSeqLen: int)
    : string -> Result<TrainFeatures>
  {
    line => TrainLine(line, stopwords, stem, vocab, maxSeqLen)
  }

  function DevParser(stopwords: set<string>, stem: string -> string, vocab: Vocab, maxSeqLen: int)
    : string -> Result<DevFeatures>
  {
    line => DevLine(line, stopwords, stem, vocab, maxSeqLen)
  }

  method ReadTrainToFeatures(lines: seq<string>, stopwords: set<string>, stem: string -> string,
                             vocab: Vocab, maxSeqLen: int)
    returns (r: Result<seq<TrainFeatures>>)
    ensures r == ParseAll(lines, TrainParser(stopwords, stem, vocab, maxSeqLen))
  {
    var parse := TrainParser(stopwords, stem, vocab, maxSeqLen);
    var features := [];
    for i := 0 to |lines|
      invariant ParseAll(lines[..i], parse) == Ok(features)
    {
      var f := ReadTrainLine(lines[i], stopwords, stem, vocab, maxSeqLen);
      assert parse(lines[i]) == f;
      ParseAllStep(lines, i, parse, features);
      if f.Err? {
        ParseAllSticky(lines, i + 1, parse);
        return Err(f.error);
      }
      features := features + [f.value];
    }
    assert lines[..|lines|] == lines;
    return Ok(features);
  }

  method ReadDevToFeatures(lines: seq<string>, stopwords: set<string>, stem: string -> string,
                           vocab: Vocab, maxSeqLen: int)
    returns (r: Result<seq<DevFeatures>>)
    ensures r == ParseAll(lines, DevParser(stopwords, stem, vocab, maxSeqLen))
  {
    var parse := DevParser(stopwords, stem, vocab, maxSeqLen);
    var features := [];
    for i := 0 to |lines|
      invariant ParseAll(lines[..i], parse) == Ok(features)
    {
      var f := ReadDevLine(lines[i], stopwords, stem, vocab, maxSeqLen);
      assert parse(lines[i]) == f;
      ParseAllStep(lines, i, parse, features);
      if f.Err? {
        ParseAllSticky(lines, i + 1, parse);
        return Err(f.error);
      }
      features := features + [f.value];
    }
    assert lines[..|lines|] == lines;
    return Ok(features);
  }

  // ---------------------------------------------------------------------
  // Batching: consecutive slices of batch_size indices

  /** Consecutive slices of `size` elements; the last may be shorter. */
  function Chunks<T>(s: seq<T>, size: nat): (r: seq<seq<T>>)
    requires size > 0
    ensures |r| <= |s|
    decreases |s|
  {
    if s == [] then []
    else if |s| <= size then [s]
    else [s[..size]] + Chunks(s[size..], size)
  }

  /** The slices put back together are the whole sequence. */
  lemma {:induction false} ChunksFlatten<T>(s: seq<T>, size: nat)
    requires size > 0
    ensures Flatten(Chunks(s, size)) == s
    decreases |s|
  {
    if s != [] && |s| > size {
      ChunksFlatten(s[size..], size);
      assert s == s[..size] + s[size..];
    } else if s != [] {
      assert Flatten([s]) == s + Flatten([]);
    }
  }

  /** Zero elements give zero slices; otherwise there are m slices with
      (m - 1) * size < |s| <= m * size (m = ceil(|s| / size)), every slice
      is non-empty, none is longer than `size`, and all but the last are
      exactly `size` long. */
  lemma {:induction false} ChunksShape<T>(s: seq<T>, size: nat)
    requires size > 0
    ensures var c := Chunks(s, size);
      && (s == [] <==> c == [])
      && (s != [] ==> (|c| - 1) * size < |s| <= |c| * size)
      && (forall k :: 0 <= k < |c| ==> 0 < |c[k]| <= size)
      && (forall k :: 0 <= k < |c| - 1 ==> |c[k]| == size)
    decreases |s|
  {
    if |s| > size {
      var rest := s[size..];
      ChunksShape(rest, size);
      var c, c' := Chunks(s, size), Chunks(rest, size);
      assert |c| == |c'| + 1;
      assert |c| * size == |c'| * size + size;
      assert (|c| - 1) * size == (|c'| - 1) * size + size;
      assert forall k :: 1 <= k < |c| ==> c[k] == c'[k - 1];
    }
  }

  lemma MulPred(k: nat, size: nat)
    requires k > 0
    ensures (k - 1) * size + size == k * size
  {
  }

  lemma SliceOfSuffix<T>(s: seq<T>, d: nat, a: nat, b: nat)
    requires d <= |s| && a <= b <= |s| - d
    ensures s[d..][a..b] == s[d + a .. d + b]
  {
  }

  /** Slice k is s[k * size .. min((k + 1) * size, |s|)]. */
  lemma {:induction false} ChunkAt<T>(s: seq<T>, size: nat, k: nat)
    requires size > 0 && k < |Chunks(s, size)|
    ensures k * size < |s|
    ensures Chunks(s, size)[k] == s[k * size .. Min(k * size + size, |s|)]
    decreases |s|
  {
    if k > 0 {
      var rest := s[size..];
      ChunkAt(rest, size, k - 1);
      var lo := (k - 1) * size;
      assert lo + size == k * size by {
        MulPred(k, size);
      }
      SliceOfSuffix(s, size, lo, Min(lo + size, |rest|));
    }
  }

  /** The first k batches cover exactly the first min(k * size, n) indices,
      which is how far the loop over range(0, n, size) has come. */
  lemma {:induction false} ChunksPrefix<T>(s: seq<T>, size: nat, k: nat)
    requires size > 0 && k <= |Chunks(s, size)|
    ensures Flatten(Chunks(s, size)[..k]) == s[..Min(k * size, |s|)]
  {
    var c := Chunks(s, size);
    if k == 0 {
      assert c[..0] == [];
    } else {
      ChunksPrefix(s, size, k - 1);
      ChunkAt(s, size, k - 1);
      var lo := (k - 1) * size;
      assert lo + size == k * size by {
        MulPred(k, size);
      }
      assert c[..k] == c[..k - 1] + [c[k - 1]];
      FlattenAppend(c[..k - 1], [c[k - 1]]);
      assert Flatten([c[k - 1]]) == c[k - 1];
      assert s[..lo] + s[lo..Min(k * size, |s|)] == s[..Min(k * size, |s|)];
    }
  }

  /** The slices of an in-range index order stay in range. */
  lemma ChunksInRange(idx: seq<nat>, size: nat, n: nat)
    requires size > 0 && InRange(idx, n)
    ensures forall k :: 0 <= k < |Chunks(idx, size)| ==> InRange(Chunks(idx, size)[k], n)
  {
    forall k | 0 <= k < |Chunks(idx, size)| ensures InRange(Chunks(idx, size)[k], n) {
      ChunkAt(idx, size, k);
    }
  }

  predicate InRange(idx: seq<nat>, n: nat)
  {
    forall i :: 0 <= i < |idx| ==> idx[i] < n
  }

  /** np.random.shuffle of np.arange(n): each of 0 .. n-1 exactly once. */
  predicate IsPermutation(order: seq<nat>, n: nat)
  {
    && |order| == n
    && InRange(order, n)
    && forall i, j :: 0 <= i < j < n ==> order[i] != order[j]
  }

  /** np.arange(n) */
  function Arange(n: nat): (r: seq<nat>)
    ensures IsPermutation(r, n)
  {
    seq(n, i requires 0 <= i < n => i)
  }

  datatype TrainBatch = TrainBatch(
    queryIdx: seq<seq<int>>, posIdx: seq<seq<int>>, negIdx: seq<seq<int>>,
    queryLen: seq<nat>, posLen: seq<nat>, negLen: seq<nat>)

  datatype DevBatch = DevBatch(
    queryIds: seq<string>, docIds: seq<string>, qdScores: seq<int>, rawScores: seq<string>,
    queryIdx: seq<seq<int>>, docIdx: seq<seq<int>>, queryLen: seq<nat>, docLen: seq<nat>)

  /** The batch tuple built from the features with the given indices, field
      by field (the rows are already of equal length, so stacking them is
      the identity here). */
  function TrainBatchOf(features: seq<TrainFeatures>, ix: seq<nat>): TrainBatch
    requires InRange(ix, |features|)
  {
    TrainBatch(
      seq(|ix|, i requires 0 <= i < |ix| => features[ix[i]].queryIdx),
      seq(|ix|, i requires 0 <= i < |ix| => features[ix[i]].posIdx),
      seq(|ix|, i requires 0 <= i < |ix| => features[ix[i]].negIdx),
      seq(|ix|, i requires 0 <= i < |ix| => features[ix[i]].queryLen),
      seq(|ix|, i requires 0 <= i < |ix| => features[ix[i]].posLen),
      seq(|ix|, i requires 0 <= i < |ix| => features[ix[i]].negLen))
  }

  function DevBatchOf(features: seq<DevFeatures>, ix: seq<nat>): DevBatch
    requires InRange(ix, |features|)
  {
    DevBatch(
      seq(|ix|, i requires 0 <= i < |ix| => features[ix[i]].queryId),
      seq(|ix|, i requires 0 <= i < |ix| => features[ix[i]].docId),
      seq(|ix|, i requires 0 <= i < |ix| => features[ix[i]].qdScore),
      seq(|ix|, i requires 0 <= i < |ix| => features[ix[i]].rawScore),
      seq(|ix|, i requires 0 <= i < |ix| => features[ix[i]].queryIdx),
      seq(|ix|, i requires 0 <= i < |ix| => features[ix[i]].docIdx),
      seq(|ix|, i requires 0 <= i < |ix| => features[ix[i]].queryLen),
      seq(|ix|, i requires 0 <= i < |ix| => features[ix[i]].docLen))
  }

  function TrainBatchesOf(features: seq<TrainFeatures>, chunks: seq<seq<nat>>): (r: seq<TrainBatch>)
    requires forall k :: 0 <= k < |chunks| ==> InRange(chunks[k], |features|)
    ensures |r| == |chunks|
  {
    if chunks == [] then []
    else [TrainBatchOf(features, chunks[0])] + TrainBatchesOf(features, chunks[1..])
  }

  function DevBatchesOf(features: seq<DevFeatures>, chunks: seq<seq<nat>>): (r: seq<DevBatch>)
    requires forall k :: 0 <= k < |chunks| ==> InRange(chunks[k], |features|)
    ensures |r| == |chunks|
  {
    if chunks == [] then []
    else [DevBatchOf(features, chunks[0])] + DevBatchesOf(features, chunks[1..])
  }

  /** The batches of one pass: the features taken in `order`, batch_size at
      a time (Python's range(0, n, batch_size) yields nothing for a negative
      step). */
  function TrainBatches(features: seq<TrainFeatures>, order: seq<nat>, batchSize: int): seq<TrainBatch>
    requires InRange(order, |features|)
  {
    if batchSize <= 0 then []
    else
      ChunksInRange(order, batchSize, |features|);
      TrainBatchesOf(features, Chunks(order, batchSize))
  }

  function DevBatches(features: seq<DevFeatures>, batchSize: int): seq<DevBatch>
  {
    if batchSize <= 0 then []
    else
      ChunksInRange(Arange(|features|), batchSize, |features|);
      DevBatchesOf(features, Chunks(Arange(|features|), batchSize))
  }

  /** Facts about one step of the batching loop: the next slice of the
      remaining indices, and what remains after it. */
  lemma ChunksStep(idx: seq<nat>, start: nat, size: nat)
    requires size > 0 && start < |idx|
    ensures var stop := Min(start + size, |idx|);
      Chunks(idx[start..], size) == [idx[start..stop]] + Chunks(idx[stop..], size)
  {
    var stop := Min(start + size, |idx|);
    var rest := idx[start..];
    if stop < |idx| {
      assert rest[..size] == idx[start..stop];
      assert rest[size..] == idx[stop..];
    } else {
      assert rest == idx[start..stop];
      assert idx[stop..] == [];
    }
  }

  /** The batching loop of train_dataloader: for start in range(0, n,
      batch_size), the features at idx[start:start + batch_size]. */
  method MakeTrainBatches(features: seq<TrainFeatures>, idx: seq<nat>, batchSize: nat)
    returns (batches: seq<TrainBatch>)
    requires batchSize > 0 && InRange(idx, |features|)
    ensures batches == TrainBatches(features, idx, batchSize)
  {
    var n := |idx|;
    batches := [];
    var start := 0;
    ChunksInRange(idx, batchSize, |features|);
    while start < n
      invariant 0 <= start <= n
      invariant forall k :: 0 <= k < |Chunks(idx[start..], batchSize)| ==>
        InRange(Chunks(idx[start..], batchSize)[k], |features|)
      invariant batches + TrainBatchesOf(features, Chunks(idx[start..], batchSize))
             == TrainBatchesOf(features, Chunks(idx, batchSize))
      decreases n - start
    {
      var stop := Min(start + batchSize, n);
      var here, rest := Chunks(idx[start..], batchSize), Chunks(idx[stop..], batchSize);
      assert here == [idx[start..stop]] + rest by {
        ChunksStep(idx, start, batchSize);
      }
      assert InRange(idx[stop..], |features|);
      ChunksInRange(idx[stop..], batchSize, |features|);
      assert TrainBatchesOf(features, here) == [TrainBatchOf(features, idx[start..stop])] + TrainBatchesOf(features, rest) by {
        assert here[1..] == rest;
      }
      batches := batches + [TrainBatchOf(features, idx[start..stop])];
      start := stop;
    }
    assert idx[start..] == [];
  }

  /** The batching loop of dev_dataloader, over the indices in file order. */
  method MakeDevBatches(features: seq<DevFeatures>, batchSize: nat) returns (batches: seq<DevBatch>)
    requires batchSize > 0
    ensures batches == DevBatches(features, batchSize)
  {
    var idx := Arange(|features|);
    var n := |idx|;
    batches := [];
    var start := 0;
    ChunksInRange(idx, batchSize, |features|);
    while start < n
      invariant 0 <= start <= n
      invariant forall k :: 0 <= k < |Chunks(idx[start..], batchSize)| ==>
        InRange(Chunks(idx[start..], batchSize)[k], |features|)
      invariant batches + DevBatchesOf(features, Chunks(idx[start..], batchSize))
             == DevBatchesOf(features, Chunks(idx, batchSize))
      decreases n - start
    {
      var stop := Min(start + batchSize, n);
      var here, rest := Chunks(idx[start..], batchSize), Chunks(idx[stop..], batchSize);
      assert here == [idx[start..stop]] + rest by {
        ChunksStep(idx, start, batchSize);
      }
      assert InRange(idx[stop..], |features|);
      ChunksInRange(idx[stop..], batchSize, |features|);
      assert DevBatchesOf(features, here) == [DevBatchOf(features, idx[start..stop])] + DevBatchesOf(features, rest) by {
        assert here[1..] == rest;
      }
      batches := batches + [DevBatchOf(features, idx[start..stop])];
      start := stop;
    }
    assert idx[start..] == [];
  }

  /** train_dataloader: read the file, take the indices in shuffled order
      (or in file order when shuffle is off), and cut them into batches.
      `shuffled` stands for the permutation np.random.shuffle produces. */
  method TrainDataloader(lines: seq<string>, stopwords: set<string>, stem: string -> string, vocab: Vocab,
                         maxSeqLen: int, batchSize: int, shuffle: bool, shuffled: seq<nat>)
    returns (r: Result<seq<TrainBatch>>)
    requires shuffle ==> IsPermutation(shuffled, |lines|)
    ensures var read := ParseAll(lines, TrainParser(stopwords, stem, vocab, maxSeqLen));
      r == if read.Err? then Err(read.error)
           else if batchSize == 0 then Err(ValueError)
           else Ok(TrainBatches(read.value, if shuffle then shuffled else Arange(|lines|), batchSize))
  {
    var read := ReadTrainToFeatures(lines, stopwords, stem, vocab, maxSeqLen);
    if read.Err? {
      return Err(read.error);
    }
    var features := read.value;
    var idx := if shuffle then shuffled else Arange(|features|);
    if batchSize == 0 {
      return Err(ValueError);
    }
    var batches := [];
    if batchSize > 0 {
      batches := MakeTrainBatches(features, idx, batchSize);
    }
    return Ok(batches);
  }

  /** dev_dataloader: read the file and cut it, in file order, into batches. */
  method DevDataloader(lines: seq<string>, stopwords: set<string>, stem: string -> string, vocab: Vocab,
                       maxSeqLen: int, batchSize: int)
    returns (r: Result<seq<DevBatch>>)
    ensures var read := ParseAll(lines, DevParser(stopwords, stem, vocab, maxSeqLen));
      r == if read.Err? then Err(read.error)
           else if batchSize == 0 then Err(ValueError)
           else Ok(DevBatches(read.value, batchSize))
  {
    var read := ReadDevToFeatures(lines, stopwords, stem, vocab, maxSeqLen);
    if read.Err? {
      return Err(read.error);
    }
    var features := read.value;
    if batchSize == 0 {
      return Err(ValueError);
    }
    var batches := [];
    if batchSize > 0 {
      batches := MakeDevBatches(features, batchSize);
    }
    return Ok(batches);
  }

  lemma {:induction false} TrainBatchesOfAt(features: seq<TrainFeatures>, chunks: seq<seq<nat>>, k: nat)
    requires forall j :: 0 <= j < |chunks| ==> InRange(chunks[j], |features|)
    requires k < |chunks|
    ensures TrainBatchesOf(features, chunks)[k] == TrainBatchOf(features, chunks[k])
  {
    if k > 0 {
      TrainBatchesOfAt(features, chunks[1..], k - 1);
    }
  }

  lemma {:induction false} DevBatchesOfAt(features: seq<DevFeatures>, chunks: seq<seq<nat>>, k: nat)
    requires forall j :: 0 <= j < |chunks| ==> InRange(chunks[j], |features|)
    requires k < |chunks|
    ensures DevBatchesOf(features, chunks)[k] == DevBatchOf(features, chunks[k])
  {
    if k > 0 {
      DevBatchesOfAt(features, chunks[1..], k - 1);
    }
  }

  /** Row j of a batch holds the features of index j of the batch. */
  lemma TrainBatchRow(features: seq<TrainFeatures>, ix: seq<nat>, j: nat)
    requires InRange(ix, |features|) && j < |ix|
    ensures var b := TrainBatchOf(features, ix);
      var f := features[ix[j]];
      && |b.queryIdx| == |ix| && |b.posIdx| == |ix| && |b.negIdx| == |ix|
      && |b.queryLen| == |ix| && |b.posLen| == |ix| && |b.negLen| == |ix|
      && b.queryIdx[j] == f.queryIdx && b.posIdx[j] == f.posIdx && b.negIdx[j] == f.negIdx
      && b.queryLen[j] == f.queryLen && b.posLen[j] == f.posLen && b.negLen[j] == f.negLen
  {
  }

  lemma DevBatchRow(features: seq<DevFeatures>, ix: seq<nat>, j: nat)
    requires InRange(ix, |features|) && j < |ix|
    ensures var b := DevBatchOf(features, ix);
      var f := features[ix[j]];
      && |b.queryIds| == |ix| && |b.docIds| == |ix| && |b.qdScores| == |ix| && |b.rawScores| == |ix|
      && |b.queryIdx| == |ix| && |b.docIdx| == |ix| && |b.queryLen| == |ix| && |b.docLen| == |ix|
      && b.queryIds[j] == f.queryId && b.docIds[j] == f.docId && b.qdScores[j] == f.qdScore
      && b.rawScores[j] == f.rawScore && b.queryIdx[j] == f.queryIdx && b.docIdx[j] == f.docIdx
      && b.queryLen[j] == f.queryLen && b.docLen[j] == f.docLen
  {
  }

  /** Batch k of a training pass is the batch built from the slice
      order[k * batch_size : (k + 1) * batch_size] of the index order: it
      holds min(batch_size, n - k * batch_size) examples, and (by
      TrainBatchRow) its row j is the example at position k * batch_size + j
      of the (shuffled) order. With a permutation as the order, every
      example is thus visited exactly once per pass. */
  lemma TrainBatchAt(features: seq<TrainFeatures>, order: seq<nat>, batchSize: int, k: nat)
    requires batchSize > 0 && InRange(order, |features|)
    requires k < |TrainBatches(features, order, batchSize)|
    ensures k * batchSize < |order|
    ensures var ix := order[k * batchSize .. Min(k * batchSize + batchSize, |order|)];
      |ix| == Min(batchSize, |order| - k * batchSize) && InRange(ix, |features|)
      && TrainBatches(features, order, batchSize)[k] == TrainBatchOf(features, ix)
  {
    var chunks := Chunks(order, batchSize);
    var lo, hi := k * batchSize, Min(k * batchSize + batchSize, |order|);
    assert lo < |order| && chunks[k] == order[lo..hi] by {
      ChunkAt(order, batchSize, k);
    }
    assert TrainBatches(features, order, batchSize)[k] == TrainBatchOf(features, chunks[k]) by {
      ChunksInRange(order, batchSize, |features|);
      TrainBatchesOfAt(features, chunks, k);
    }
  }

  /** The dev loader never shuffles: batch k holds examples k * batch_size,
      k * batch_size + 1, ... in file order, and (by DevBatchRow) its
      query-id, doc-id and qd-score lists are aligned position by position. */
  lemma DevBatchAt(features: seq<DevFeatures>, batchSize: int, k: nat)
    requires batchSize > 0
    requires k < |DevBatches(features, batchSize)|
    ensures k * batchSize < |features|
    ensures var ix := Arange(|features|)[k * batchSize .. Min(k * batchSize + batchSize, |features|)];
      && |ix| == Min(batchSize, |features| - k * batchSize)
      && (forall j :: 0 <= j < |ix| ==> ix[j] == k * batchSize + j)
      && InRange(ix, |features|) && DevBatches(features, batchSize)[k] == DevBatchOf(features, ix)
  {
    var idx := Arange(|features|);
    var chunks := Chunks(idx, batchSize);
    var lo, hi := k * batchSize, Min(k * batchSize + batchSize, |features|);
    assert lo < |features| && chunks[k] == idx[lo..hi] by {
      ChunkAt(idx, batchSize, k);
    }
    assert DevBatches(features, batchSize)[k] == DevBatchOf(features, chunks[k]) by {
      ChunksInRange(idx, batchSize, |features|);
      DevBatchesOfAt(features, chunks, k);
    }
    assert forall j :: 0 <= j < hi - lo ==> idx[lo..hi][j] == lo + j;
  }

  /** The number of batches of a pass is ceil(n / batch_size). */
  lemma TrainBatchCount(features: seq<TrainFeatures>, order: seq<nat>, batchSize: int)
    requires batchSize > 0 && InRange(order, |features|)
    ensures var m := |TrainBatches(features, order, batchSize)|;
      (order == [] <==> m == 0) && (order != [] ==> (m - 1) * batchSize < |order| <= m * batchSize)
  {
    ChunksInRange(order, batchSize, |features|);
    ChunksShape(order, batchSize);
  }

  lemma DevBatchCount(features: seq<DevFeatures>, batchSize: int)
    requires batchSize > 0
    ensures var m := |DevBatches(features, batchSize)|;
      (features == [] <==> m == 0) && (features != [] ==> (m - 1) * batchSize < |features| <= m * batchSize)
  {
    ChunksInRange(Arange(|features|), batchSize, |features|);
    ChunksShape(Arange(|features|), batchSize);
  }
}

=== FILE: devrun.dfy ===
/** The ranked-run assembly of `dev` in train_bert.py: the (label, score,
    document id) triples of every dev batch are grouped per query id, each
    query's list is sorted by score, highest first, keeping the input order
    of equal scores, and one TREC run line is written per triple. */
module DevRun {
  import opened Common
  import opened PyText

  /** The identifying columns of one dev batch. */
  datatype Batch = Batch(queryIds: seq<string>, docIds: seq<string>, labels: seq<int>)

  /** What rst_dict holds per query: (qd_score label, model score, doc id). */
  datatype Entry = Entry(qd: int, score: real, docId: string)

  datatype Item = Item(queryId: string, entry: Entry)

  // ---------------------------------------------------------------------
  // The zipped triples

  /** zip(query_id, doc_id, qd_score, d_scores) stops at the shortest. */
  function ZipLen(b: Batch, scores: seq<real>): nat
  {
    Min(Min(|b.queryIds|, |b.docIds|), Min(|b.labels|, |scores|))
  }

  function BatchItems(b: Batch, scores: seq<real>): (r: seq<Item>)
    ensures |r| == ZipLen(b, scores)
  {
    seq(ZipLen(b, scores), i requires 0 <= i < ZipLen(b, scores) =>
      Item(b.queryIds[i], Entry(b.labels[i], scores[i], b.docIds[i])))
  }

  /** The triples of all batches, in batch order. */
  function Items(batches: seq<Batch>, scores: seq<seq<real>>): seq<Item>
    requires |scores| == |batches|
  {
    if batches == [] then []
    else
      var n := |batches| - 1;
      Items(batches[..n], scores[..n]) + BatchItems(batches[n], scores[n])
  }

  // ---------------------------------------------------------------------
  // Grouping per query (a dict, so keys in first-insertion order)

  /** The query ids in order of first appearance. */
  function QueryOrder(items: seq<Item>): (r: seq<string>)
    ensures |r| <= |items|
  {
    if items == [] then []
    else
      var order := QueryOrder(items[..|items| - 1]);
      var q := items[|items| - 1].queryId;
      if q in order then order else order + [q]
  }

  /** The entries of query q, in input order. */
  function Group(items: seq<Item>, q: string): (r: seq<Entry>)
    ensures |r| <= |items|
  {
    if items == [] then []
    else
      var last := items[|items| - 1];
      Group(items[..|items| - 1], q) + (if last.queryId == q then [last.entry] else [])
  }

  /** The query order lists every query id exactly once, and nothing else. */
  lemma {:induction false} QueryOrderSpec(items: seq<Item>)
    ensures forall i, j :: 0 <= i < j < |QueryOrder(items)| ==> QueryOrder(items)[i] != QueryOrder(items)[j]
    ensures forall q :: q in QueryOrder(items) <==> exists i :: 0 <= i < |items| && items[i].queryId == q
  {
    if items != [] {
      var init := items[..|items| - 1];
      QueryOrderSpec(init);
      assert forall i :: 0 <= i < |init| ==> init[i] == items[i];
      forall q | q in QueryOrder(items) ensures exists i :: 0 <= i < |items| && items[i].queryId == q {
        if q !in QueryOrder(init) {
          assert items[|items| - 1].queryId == q;
        }
      }
    }
  }

  /** A query with no item has an empty group; every entry of the group
      comes from an item of that query, and every item of that query has its
      entry in the group. */
  lemma {:induction false} GroupSpec(items: seq<Item>, q: string)
    ensures q !in QueryOrder(items) ==> Group(items, q) == []
    ensures forall k :: 0 <= k < |Group(items, q)| ==>
      exists i :: 0 <= i < |items| && items[i] == Item(q, Group(items, q)[k])
    ensures forall i :: 0 <= i < |items| && items[i].queryId == q ==> items[i].entry in Group(items, q)
  {
    if items != [] {
      var init := items[..|items| - 1];
      GroupSpec(init, q);
      assert forall i :: 0 <= i < |init| ==> init[i] == items[i];
      var g := Group(items, q);
      assert g == Group(init, q) + (if items[|items| - 1].queryId == q then [items[|items| - 1].entry] else []);
      forall k | 0 <= k < |g| ensures exists i :: 0 <= i < |items| && items[i] == Item(q, g[k]) {
        if k < |Group(init, q)| {
          assert g[k] == Group(init, q)[k];
        } else {
          assert items[|items| - 1] == Item(q, g[k]);
        }
      }
      forall i | 0 <= i < |items| && items[i].queryId == q ensures items[i].entry in g {
        if i < |init| {
          assert items[i].entry in Group(init, q);
        } else {
          assert g[|g| - 1] == items[i].entry;
        }
      }
    }
  }

  /** The loop's dictionary: keys in insertion order, and the list per key. */
  ghost predicate Collected(order: seq<string>, groups: map<string, seq<Entry>>, items: seq<Item>)
  {
    && order == QueryOrder(items)
    && (forall q :: q in groups <==> q in order)
    && (forall q :: q in groups ==> groups[q] == Group(items, q))
  }

  lemma CollectStep(order: seq<string>, groups: map<string, seq<Entry>>, items: seq<Item>, x: Item)
    requires Collected(order, groups, items)
    ensures x.queryId in groups ==>
      Collected(order, groups[x.queryId := groups[x.queryId] + [x.entry]], items + [x])
    ensures x.queryId !in groups ==>
      Collected(order + [x.queryId], groups[x.queryId := [x.entry]], items + [x])
  {
    assert (items + [x])[..|items|] == items;
    GroupSpec(items, x.queryId);
  }

  /** The grouping loop of `dev`: append each triple to its query's list,
      creating the list (and the key) at the query's first triple. */
  method CollectRun(batches: seq<Batch>, scores: seq<seq<real>>)
    returns (order: seq<string>, groups: map<string, seq<Entry>>)
    requires |scores| == |batches|
    ensures order == QueryOrder(Items(batches, scores))
    ensures forall q :: q in groups <==> q in order
    ensures forall q :: q in groups ==> groups[q] == Group(Items(batches, scores), q)
  {
    order := [];
    groups := map[];
    for b := 0 to |batches|
      invariant Collected(order, groups, Items(batches[..b], scores[..b]))
    {
      ghost var before := Items(batches[..b], scores[..b]);
      order, groups := CollectBatch(order, groups, batches[b], scores[b], before);
      assert batches[..b + 1][..b] == batches[..b];
      assert scores[..b + 1][..b] == scores[..b];
    }
    assert batches[..|batches|] == batches;
    assert scores[..|scores|] == scores;
  }

  /** The inner loop: the triples of one batch. */
  method CollectBatch(order0: seq<string>, groups0: map<string, seq<Entry>>, batch: Batch, sc: seq<real>,
                      ghost before: seq<Item>)
    returns (order: seq<string>, groups: map<string, seq<Entry>>)
    requires Collected(order0, groups0, before)
    ensures Collected(order, groups, before + BatchItems(batch, sc))
  {
    order, groups := order0, groups0;
    var n := ZipLen(batch, sc);
    ghost var items := BatchItems(batch, sc);
    ghost var seen := before;
    assert items[..0] == [];
    for j := 0 to n
      invariant seen == before + items[..j]
      invariant Collected(order, groups, seen)
    {
      var q := batch.queryIds[j];
      var entry := Entry(batch.labels[j], sc[j], batch.docIds[j]);
      assert items[..j + 1] == items[..j] + [Item(q, entry)];
      CollectStep(order, groups, seen, Item(q, entry));
      seen := seen + [Item(q, entry)];
      if q in groups {
        groups := groups[q := groups[q] + [entry]];
      } else {
        groups := groups[q := [entry]];
        order := order + [q];
      }
    }
    assert items[..n] == items;
  }

  // ---------------------------------------------------------------------
  // sorted(scores, key=score, reverse=True)

  predicate SortedDesc(s: seq<Entry>)
  {
    forall i, j :: 0 <= i < j < |s| ==> s[i].score >= s[j].score
  }

  /** Put x after every entry whose score is at least its own. */
  function Insert(x: Entry, s: seq<Entry>): (r: seq<Entry>)
    ensures |r| == |s| + 1
  {
    if s == [] then [x]
    else if s[0].score >= x.score then
      [s[0]] + Insert(x, s[1..])
    else [x] + s
  }

  /** Python's stable descending sort, as an insertion sort. */
  function SortDesc(xs: seq<Entry>): (r: seq<Entry>)
    ensures |r| == |xs|
  {
    if xs == [] then [] else Insert(xs[|xs| - 1], SortDesc(xs[..|xs| - 1]))
  }

  /** The entries of s whose score is v, in order. */
  function WithScore(s: seq<Entry>, v: real): seq<Entry>
  {
    if s == [] then [] else (if s[0].score == v then [s[0]] else []) + WithScore(s[1..], v)
  }

  lemma {:induction false} WithScoreConcat(a: seq<Entry>, b: seq<Entry>, v: real)
    ensures WithScore(a + b, v) == WithScore(a, v) + WithScore(b, v)
  {
    if a != [] {
      assert (a + b)[1..] == a[1..] + b;
      WithScoreConcat(a[1..], b, v);
    } else {
      assert a + b == b;
    }
  }

  lemma {:induction false} WithScoreNone(s: seq<Entry>, v: real)
    requires forall i :: 0 <= i < |s| ==> s[i].score < v
    ensures WithScore(s, v) == []
  {
    if s != [] {
      WithScoreNone(s[1..], v);
    }
  }

  lemma {:induction false} InsertPerm(x: Entry, s: seq<Entry>)
    ensures multiset(Insert(x, s)) == multiset(s) + multiset{x}
  {
    if s != [] && s[0].score >= x.score {
      InsertPerm(x, s[1..]);
      assert s == [s[0]] + s[1..];
    }
  }

  lemma {:induction false} InsertSorted(x: Entry, s: seq<Entry>)
    requires SortedDesc(s)
    ensures SortedDesc(Insert(x, s))
  {
    if s != [] && s[0].score >= x.score {
      var rest := Insert(x, s[1..]);
      assert SortedDesc(rest) by {
        InsertSorted(x, s[1..]);
      }
      assert Insert(x, s) == [s[0]] + rest;
      forall k | 0 <= k < |rest| ensures s[0].score >= rest[k].score {
        assert rest[k] == x || rest[k] in s[1..] by {
          InsertPerm(x, s[1..]);
          assert rest[k] in multiset(rest);
        }
      }
    }
  }

  lemma WithScoreCons(e: Entry, s: seq<Entry>, v: real)
    ensures WithScore([e] + s, v) == (if e.score == v then [e] else []) + WithScore(s, v)
  {
    assert ([e] + s)[0] == e;
    assert ([e] + s)[1..] == s;
  }

  lemma {:induction false} InsertStable(x: Entry, s: seq<Entry>, v: real)
    requires SortedDesc(s)
    ensures WithScore(Insert(x, s), v) == WithScore(s, v) + (if x.score == v then [x] else [])
  {
    var xs: seq<Entry> := if x.score == v then [x] else [];
    if s == [] {
      assert Insert(x, s) == [x] + s;
      WithScoreCons(x, s, v);
    } else if s[0].score >= x.score {
      var rest := Insert(x, s[1..]);
      assert SortedDesc(s[1..]);
      InsertStable(x, s[1..], v);
      assert Insert(x, s) == [s[0]] + rest;
      WithScoreCons(s[0], rest, v);
      assert s == [s[0]] + s[1..];
      WithScoreCons(s[0], s[1..], v);
    } else {
      assert Insert(x, s) == [x] + s;
      WithScoreCons(x, s, v);
      if x.score == v {
        WithScoreNone(s, v);
      }
    }
  }

  /** The sort orders by score, highest first. */
  lemma {:induction false} SortDescSorted(xs: seq<Entry>)
    ensures SortedDesc(SortDesc(xs))
  {
    if xs != [] {
      SortDescSorted(xs[..|xs| - 1]);
      InsertSorted(xs[|xs| - 1], SortDesc(xs[..|xs| - 1]));
    }
  }

  /** The sort keeps every entry, as often as it occurs. */
  lemma {:induction false} SortDescPerm(xs: seq<Entry>)
    ensures multiset(SortDesc(xs)) == multiset(xs)
  {
    if xs != [] {
      var init, x := xs[..|xs| - 1], xs[|xs| - 1];
      SortDescPerm(init);
      InsertPerm(x, SortDesc(init));
      assert xs == init + [x];
    }
  }

  /** The sort is stable: the entries of any one score keep their input
      order (Python's sorted with reverse=True does not reverse ties). */
  lemma {:induction false} SortDescStable(xs: seq<Entry>, v: real)
    ensures WithScore(SortDesc(xs), v) == WithScore(xs, v)
  {
    if xs != [] {
      var init, x := xs[..|xs| - 1], xs[|xs| - 1];
      var tie: seq<Entry> := if x.score == v then [x] else [];
      assert SortDesc(xs) == Insert(x, SortDesc(init));
      assert WithScore(SortDesc(xs), v) == WithScore(SortDesc(init), v) + tie by {
        SortDescSorted(init);
        InsertStable(x, SortDesc(init), v);
      }
      SortDescStable(init, v);
      assert WithScore(xs, v) == WithScore(init, v) + tie by {
        assert xs == init + [x];
        WithScoreConcat(init, [x], v);
        WithScoreCons(x, [], v);
        assert [x] + [] == [x];
      }
    }
  }

  // ---------------------------------------------------------------------
  // TREC run lines

  /** q_id Q0 doc_id rank score bert, one line, with the score already
      written out as text. */
  function RunLine(q: string, docId: string, rank: nat, scoreText: string): string
  {
    q + " Q0 " + docId + " " + NatToString(rank) + " " + scoreText + " bert\n"
  }

  /** One query's lines: ranks 1, 2, ... down the sorted list. */
  function Block(q: string, res: seq<Entry>, fmt: real -> string): seq<string>
  {
    seq(|res|, i requires 0 <= i < |res| => RunLine(q, res[i].docId, i + 1, fmt(res[i].score)))
  }

  /** The run file: the queries in dictionary order, each with its sorted
      group. */
  function Blocks(order: seq<string>, groups: map<string, seq<Entry>>, fmt: real -> string): seq<string>
    requires forall q :: q in order ==> q in groups
  {
    if order == [] then []
    else
      var q := order[|order| - 1];
      Blocks(order[..|order| - 1], groups, fmt) + Block(q, SortDesc(groups[q]), fmt)
  }

  /** The writing loop of `dev`. */
  method WriteRun(order: seq<string>, groups: map<string, seq<Entry>>, fmt: real -> string)
    returns (lines: seq<string>)
    requires forall q :: q in order ==> q in groups
    ensures lines == Blocks(order, groups, fmt)
  {
    lines := [];
    for qi := 0 to |order|
      invariant lines == Blocks(order[..qi], groups, fmt)
    {
      assert order[..qi + 1][..qi] == order[..qi];
      var q := order[qi];
      var res := SortDesc(groups[q]);
      ghost var before := lines;
      for rank := 0 to |res|
        invariant lines == before + Block(q, res, fmt)[..rank]
      {
        assert Block(q, res, fmt)[..rank + 1] == Block(q, res, fmt)[..rank] + [RunLine(q, res[rank].docId, rank + 1, fmt(res[rank].score))];
        lines := lines + [q + " Q0 " + res[rank].docId + " " + NatToString(rank + 1) + " " + fmt(res[rank].score) + " bert\n"];
      }
      assert Block(q, res, fmt)[..|res|] == Block(q, res, fmt);
    }
    assert order[..|order|] == order;
  }

  /** The run written for given items. */
  function RunOf(items: seq<Item>, fmt: real -> string): seq<string>
  {
    QueryOrderSpec(items);
    Blocks(QueryOrder(items), map q | q in QueryOrder(items) :: Group(items, q), fmt)
  }

  /** `dev` after scoring: group the triples, then write the sorted run. */
  method Dev(batches: seq<Batch>, scores: seq<seq<real>>, fmt: real -> string) returns (lines: seq<string>)
    requires |scores| == |batches|
    ensures lines == RunOf(Items(batches, scores), fmt)
  {
    var order, groups := CollectRun(batches, scores);
    lines := WriteRun(order, groups, fmt);
    ghost var items := Items(batches, scores);
    assert groups == map q | q in QueryOrder(items) :: Group(items, q);
  }

  // ---------------------------------------------------------------------
  // Properties of the run

  /** Each run line reads back, split on spaces, as the six TREC columns,
      with the rank as an integer (query id, document id and score text free
      of spaces and newlines). */
  lemma RunLineFields(q: string, docId: string, rank: nat, scoreText: string)
    requires ' ' !in q && '\n' !in q && ' ' !in docId && '\n' !in docId
    requires ' ' !in scoreText && '\n' !in scoreText
    ensures var fields := SplitOn(Strip(RunLine(q, docId, rank, scoreText), Newline), ' ');
      && fields == [q, "Q0", docId, NatToString(rank), scoreText, "bert"]
      && ParseInt(fields[3]) == Some(rank)
  {
    RunLineSplits(q, docId, rank, scoreText);
    NatToStringParses(rank);
  }

  lemma RunLineSplits(q: string, docId: string, rank: nat, scoreText: string)
    requires ' ' !in q && '\n' !in q && ' ' !in docId && '\n' !in docId
    requires ' ' !in scoreText && '\n' !in scoreText
    ensures SplitOn(Strip(RunLine(q, docId, rank, scoreText), Newline), ' ')
         == [q, "Q0", docId, NatToString(rank), scoreText, "bert"]
  {
    var r := NatToString(rank);
    var fields := [q, "Q0", docId, r, scoreText, "bert"];
    assert ' ' !in r && '\n' !in r by {
      assert forall k :: 0 <= k < |r| ==> IsDigit(r[k]);
    }
    assert RunLine(q, docId, rank, scoreText) == Join(fields, ' ') + "\n" by {
      RunLineJoin(q, docId, rank, scoreText);
    }
    SplitLineJoin(fields, ' ');
  }

  /** A run line is its six columns joined by single spaces, then a
      newline. */
  lemma RunLineJoin(q: string, docId: string, rank: nat, txt: string)
    ensures RunLine(q, docId, rank, txt)
         == Join([q, "Q0", docId, NatToString(rank), txt, "bert"], ' ') + "\n"
  {
    ColumnsJoin(q, docId, NatToString(rank), txt);
  }

  lemma ColumnsJoin(q: string, docId: string, r: string, txt: string)
    ensures q + " Q0 " + docId + " " + r + " " + txt + " bert\n"
         == Join([q, "Q0", docId, r, txt, "bert"], ' ') + "\n"
  {
    JoinCons(txt, ["bert"], ' ');
    JoinCons(r, [txt, "bert"], ' ');
    JoinCons(docId, [r, txt, "bert"], ' ');
    JoinCons("Q0", [docId, r, txt, "bert"], ' ');
    JoinCons(q, ["Q0", docId, r, txt, "bert"], ' ');
  }

  /** Within a query's block the ranks run 1, 2, ... and the scores never
      increase. */
  lemma BlockRanks(q: string, group: seq<Entry>, fmt: real -> string, i: nat, j: nat)
    requires i < j < |group|
    ensures var res := SortDesc(group);
      && |Block(q, res, fmt)| == |group|
      && Block(q, res, fmt)[i] == RunLine(q, res[i].docId, i + 1, fmt(res[i].score))
      && res[i].score >= res[j].score
  {
    SortDescSorted(group);
    SortDescPerm(group);
    assert |multiset(SortDesc(group))| == |multiset(group)|;
  }

  function TotalSize(order: seq<string>, groups: map<string, seq<Entry>>): nat
    requires forall q :: q in order ==> q in groups
  {
    if order == [] then 0
    else TotalSize(order[..|order| - 1], groups) + |groups[order[|order| - 1]]|
  }

  lemma {:induction false} BlocksLength(order: seq<string>, groups: map<string, seq<Entry>>, fmt: real -> string)
    requires forall q :: q in order ==> q in groups
    ensures |Blocks(order, groups, fmt)| == TotalSize(order, groups)
  {
    if order != [] {
      var init := order[..|order| - 1];
      BlocksLength(init, groups, fmt);
      var g := groups[order[|order| - 1]];
      SortDescPerm(g);
      assert |multiset(SortDesc(g))| == |multiset(g)|;
    }
  }

  /** The number of entries in the groups of the listed queries. */
  function TotalGroups(order: seq<string>, items: seq<Item>): nat
  {
    if order == [] then 0
    else TotalGroups(order[..|order| - 1], items) + |Group(items, order[|order| - 1])|
  }

  lemma {:induction false} TotalSizeGroups(order: seq<string>, items: seq<Item>)
    requires forall q :: q in order ==> q in QueryOrder(items)
    ensures TotalSize(order, GroupMap(items)) == TotalGroups(order, items)
  {
    if order != [] {
      var init := order[..|order| - 1];
      assert forall q :: q in init ==> q in order;
      TotalSizeGroups(init, items);
    }
  }

  lemma GroupSnoc(items: seq<Item>, x: Item, q: string)
    ensures Group(items + [x], q) == Group(items, q) + (if x.queryId == q then [x.entry] else [])
  {
    assert (items + [x])[..|items|] == items;
  }

  /** One more item adds one entry to the total when its query is listed
      (once), and none otherwise. */
  lemma {:induction false} TotalGroupsSnoc(order: seq<string>, items: seq<Item>, x: Item)
    requires forall i, j :: 0 <= i < j < |order| ==> order[i] != order[j]
    ensures TotalGroups(order, items + [x]) == TotalGroups(order, items) + (if x.queryId in order then 1 else 0)
  {
    if order != [] {
      var init, last := order[..|order| - 1], order[|order| - 1];
      TotalGroupsSnoc(init, items, x);
      GroupSnoc(items, x, last);
      assert order == init + [last];
      assert x.queryId == last ==> x.queryId !in init by {
        forall i | 0 <= i < |init| ensures init[i] != last {
          assert init[i] == order[i];
        }
      }
    }
  }

  ghost function GroupMap(items: seq<Item>): map<string, seq<Entry>>
  {
    map q | q in QueryOrder(items) :: Group(items, q)
  }

  /** Every triple is written exactly once: the run has one line per zipped
      triple. */
  lemma {:induction false} RunLength(items: seq<Item>, fmt: real -> string)
    ensures |RunOf(items, fmt)| == |items|
  {
    QueryOrderSpec(items);
    BlocksLength(QueryOrder(items), GroupMap(items), fmt);
    TotalSizeGroups(QueryOrder(items), items);
    GroupTotal(items);
  }

  lemma {:induction false} GroupTotal(items: seq<Item>)
    ensures TotalGroups(QueryOrder(items), items) == |items|
  {
    if items != [] {
      var init, x := items[..|items| - 1], items[|items| - 1];
      GroupTotal(init);
      QueryOrderSpec(init);
      var o0 := QueryOrder(init);
      assert items == init + [x];
      TotalGroupsSnoc(o0, init, x);
      if x.queryId !in o0 {
        assert QueryOrder(items) == o0 + [x.queryId];
        assert (o0 + [x.queryId])[..|o0|] == o0;
        GroupSnoc(init, x, x.queryId);
        GroupSpec(init, x.queryId);
      }
    }
  }
}

=== FILE: episode.dfy ===
/** The data-selection episode loop of `train` in train_bert.py.

    Each epoch starts by measuring the dev NDCG. Then, for every training
    batch (a "step"), the policy samples an action; a step whose action sum
    is below 1 is skipped unless its index is a multiple of T. A kept step
    records the keep and discard log-probabilities of the action, trains
    the ranker, measures the dev NDCG again and records the NDCG gain as
    its reward. At every step whose index is a multiple of T the policy is
    updated by REINFORCE: the rewards of the window are discounted from the
    last one back, each step is routed to its keep or discard log-prob by
    the sign of its return, and the window is cleared.

    The policy network, the ranker and the dev evaluation are outside the
    model: each step arrives with its action sum, its two log-probabilities
    (of an opaque type L) and the NDCG measured after it. */
module Episode {

  /** What one training batch contributes to the loop. */
  datatype Step<L> = Step(actionSum: int, keep: L, discard: L, ndcg: real)

  /** One epoch: the dev NDCG measured before training, then the batches. */
  datatype Epoch<L> = Epoch(startNdcg: real, steps: seq<Step<L>>)

  /** One policy update: the epoch and step it happened at, the window of
      rewards it consumed, and the log-probabilities and (non-negative)
      returns that the policy loss sum(-log_prob * return) is built from. */
  datatype Update<L> = Update(epoch: nat, step: nat, rewards: seq<real>, logProbs: seq<L>, rets: seq<real>)

  /** The loop's state: best_ndcg, last_ndcg, the three window lists
      (log_prob_ps, log_prob_ns, rewards) and the updates made so far. */
  datatype State<L> = State(best: real, last: real, ps: seq<L>, ns: seq<L>, rewards: seq<real>,
                            updates: seq<Update<L>>)

  /** The window lists grow together. */
  predicate Aligned<L>(st: State<L>)
  {
    |st.ps| == |st.rewards| && |st.ns| == |st.rewards|
  }

  function Abs(x: int): nat { if x < 0 then -x else x }

  /** `if ndcg > best: best = ndcg` */
  function RealMax(best: real, x: real): real { if x > best then x else best }

  /** The skip rule: action sum below 1 and the step is not a multiple of T. */
  predicate Skipped(k: nat, actionSum: int, T: int)
    requires T != 0
    ensures k % T == 0 ==> !Skipped(k, actionSum, T)
    ensures actionSum >= 1 ==> !Skipped(k, actionSum, T)
  {
    actionSum < 1 && k % T != 0
  }

  // ---------------------------------------------------------------------
  // Discounted returns and sign routing

  /** d[i] = rs[i] + gamma * d[i + 1], with 0 past the end. */
  function Discounted(rs: seq<real>, gamma: real): (d: seq<real>)
    ensures |d| == |rs|
  {
    if rs == [] then []
    else
      var tail := Discounted(rs[1..], gamma);
      [rs[0] + gamma * (if tail == [] then 0.0 else tail[0])] + tail
  }

  /** The log-probability each step contributes: the keep one when its
      return is positive, the discard one otherwise. */
  function RoutedLogProbs<L>(ps: seq<L>, ns: seq<L>, d: seq<real>): (r: seq<L>)
    requires |ps| == |d| && |ns| == |d|
    ensures |r| == |d|
  {
    seq(|d|, i requires 0 <= i < |d| => if d[i] > 0.0 then ps[i] else ns[i])
  }

  /** The return each step contributes: R when R > 0, -R otherwise. */
  function RoutedReturns(d: seq<real>): (r: seq<real>)
    ensures |r| == |d|
  {
    seq(|d|, i requires 0 <= i < |d| => if d[i] > 0.0 then d[i] else -d[i])
  }

  /** The recurrence the reversed loop computes, at every position. */
  lemma {:induction false} DiscountedRecurrence(rs: seq<real>, gamma: real, i: nat)
    requires i < |rs|
    ensures Discounted(rs, gamma)[i]
         == rs[i] + gamma * (if i + 1 < |rs| then Discounted(rs, gamma)[i + 1] else 0.0)
  {
    if i > 0 {
      DiscountedRecurrence(rs[1..], gamma, i - 1);
      assert rs[1..][i - 1] == rs[i];
    }
  }

  /** gamma to the power n. */
  function Pow(gamma: real, n: nat): real
  {
    if n == 0 then 1.0 else gamma * Pow(gamma, n - 1)
  }

  /** sum of gamma^j * xs[j]: the textbook discounted return. */
  function WeightedSum(xs: seq<real>, gamma: real): real
  {
    if xs == [] then 0.0
    else WeightedSum(xs[..|xs| - 1], gamma) + Pow(gamma, |xs| - 1) * xs[|xs| - 1]
  }

  lemma {:induction false} WeightedSumCons(x: real, ys: seq<real>, gamma: real)
    ensures WeightedSum([x] + ys, gamma) == x + gamma * WeightedSum(ys, gamma)
    decreases |ys|
  {
    if ys == [] {
      assert [x] + ys == [x];
      assert [x][..0] == [];
    } else {
      var init, y := ys[..|ys| - 1], ys[|ys| - 1];
      var n := |ys|;
      assert ([x] + ys)[..n] == [x] + init;
      WeightedSumCons(x, init, gamma);
      var w, p := WeightedSum(init, gamma), Pow(gamma, n - 1);
      assert WeightedSum([x] + ys, gamma) == x + gamma * w + (gamma * p) * y;
      assert (gamma * p) * y == gamma * (p * y);
      assert gamma * w + gamma * (p * y) == gamma * (w + p * y);
    }
  }

  /** The loop's returns are the discounted sums of the later rewards:
      d[i] = rewards[i] + gamma * rewards[i+1] + gamma^2 * rewards[i+2] + ... */
  lemma {:induction false} DiscountedClosedForm(rs: seq<real>, gamma: real, i: nat)
    requires i < |rs|
    ensures Discounted(rs, gamma)[i] == WeightedSum(rs[i..], gamma)
    decreases |rs|
  {
    if i > 0 {
      DiscountedClosedForm(rs[1..], gamma, i - 1);
      assert rs[1..][i - 1..] == rs[i..];
    } else {
      assert rs == [rs[0]] + rs[1..];
      WeightedSumCons(rs[0], rs[1..], gamma);
      if |rs| > 1 {
        DiscountedClosedForm(rs[1..], gamma, 0);
        assert rs[1..][0..] == rs[1..];
      } else {
        assert rs[1..] == [];
      }
      assert rs[0..] == rs;
    }
  }

  /** The routing rule at each position: a positive return picks the keep
      log-probability and is used as it is; any other picks the discard
      one and is negated, so every routed return is non-negative. */
  lemma Routed<L>(ps: seq<L>, ns: seq<L>, d: seq<real>)
    requires |ps| == |d| && |ns| == |d|
    ensures |RoutedLogProbs(ps, ns, d)| == |d| && |RoutedReturns(d)| == |d|
    ensures forall i :: 0 <= i < |d| ==>
      var lp, ret := RoutedLogProbs(ps, ns, d)[i], RoutedReturns(d)[i];
      && ret >= 0.0
      && (d[i] > 0.0 ==> lp == ps[i] && ret == d[i])
      && (d[i] <= 0.0 ==> lp == ns[i] && ret == -d[i])
  {
  }

  lemma SliceCons<T>(s: seq<T>, i: nat)
    requires i < |s|
    ensures s[i..] == [s[i]] + s[i + 1..]
  {
  }

  /** The policy update's reversed loop: R runs back from 0 over the
      rewards; each step's log-probability and return are put at the front,
      so both lists end up in step order, ahead of what `logProbs0` held. */
  method PolicyUpdate<L>(logProbs0: seq<L>, ps: seq<L>, ns: seq<L>, rewards: seq<real>, gamma: real)
    returns (logProbs: seq<L>, rets: seq<real>)
    requires |ps| == |rewards| && |ns| == |rewards|
    ensures var d := Discounted(rewards, gamma);
      && logProbs == RoutedLogProbs(ps, ns, d) + logProbs0
      && rets == RoutedReturns(d)
    ensures |rets| == |rewards| && |logProbs| == |rewards| + |logProbs0|
  {
    ghost var d := Discounted(rewards, gamma);
    var R := 0.0;
    logProbs := logProbs0;
    rets := [];
    var ri := |rewards|;
    while ri > 0
      invariant 0 <= ri <= |rewards|
      invariant R == if ri == |rewards| then 0.0 else d[ri]
      invariant rets == RoutedReturns(d)[ri..]
      invariant logProbs == RoutedLogProbs(ps, ns, d)[ri..] + logProbs0
    {
      ri := ri - 1;
      assert rewards[ri] + gamma * R == d[ri] by {
        DiscountedRecurrence(rewards, gamma, ri);
      }
      R := rewards[ri] + gamma * R;
      if R > 0.0 {
        logProbs := [ps[ri]] + logProbs;
        rets := [R] + rets;
      } else {
        logProbs := [ns[ri]] + logProbs;
        rets := [-R] + rets;
      }
      SliceCons(RoutedReturns(d), ri);
      SliceCons(RoutedLogProbs(ps, ns, d), ri);
    }
  }

  // ---------------------------------------------------------------------
  // The loop as a function of its inputs

  /** One enumerated step k of epoch e. */
  function StepSpec<L>(st: State<L>, e: nat, k: nat, s: Step<L>, T: int, gamma: real): (r: State<L>)
    requires T != 0 && Aligned(st)
    ensures Aligned(r)
  {
    if Skipped(k, s.actionSum, T) then st
    else
      var best := RealMax(st.best, s.ndcg);
      var ps, ns, rewards := st.ps + [s.keep], st.ns + [s.discard], st.rewards + [s.ndcg - st.last];
      if |rewards| > 0 && k % T == 0 then
        var d := Discounted(rewards, gamma);
        var u := Update(e, k, rewards, RoutedLogProbs(ps, ns, d), RoutedReturns(d));
        State(best, s.ndcg, [], [], [], st.updates + [u])
      else
        State(best, s.ndcg, ps, ns, rewards, st.updates)
  }

  /** The first |steps| steps of epoch e. */
  function RunSteps<L>(st: State<L>, e: nat, steps: seq<Step<L>>, T: int, gamma: real): (r: State<L>)
    requires T != 0 && Aligned(st)
    ensures Aligned(r)
  {
    if steps == [] then st
    else
      var k := |steps| - 1;
      StepSpec(RunSteps(st, e, steps[..k], T, gamma), e, k, steps[k], T, gamma)
  }

  /** The start of an epoch: dev NDCG, best update, last_ndcg, empty lists. */
  function EpochStart<L>(st: State<L>, ndcg: real): (r: State<L>)
    ensures r.best >= st.best && r.best >= ndcg && (r.best == st.best || r.best == ndcg)
    ensures r.last == ndcg && r.rewards == [] && r.ps == [] && r.ns == [] && r.updates == st.updates
  {
    State(RealMax(st.best, ndcg), ndcg, [], [], [], st.updates)
  }

  function Initial<L>(): State<L>
  {
    State(0.0, 0.0, [], [], [], [])
  }

  /** The first |epochs| epochs of training. */
  function RunEpochs<L>(epochs: seq<Epoch<L>>, T: int, gamma: real): (r: State<L>)
    requires T != 0
    ensures Aligned(r)
  {
    if epochs == [] then Initial()
    else
      var e := |epochs| - 1;
      RunSteps(EpochStart(RunEpochs(epochs[..e], T, gamma), epochs[e].startNdcg), e, epochs[e].steps, T, gamma)
  }

  /** `train`: the nested epoch and step loops over the loop state. */
  method Train<L>(epochs: seq<Epoch<L>>, T: int, gamma: real) returns (best: real, updates: seq<Update<L>>)
    requires T != 0
    ensures best == RunEpochs(epochs, T, gamma).best
    ensures updates == RunEpochs(epochs, T, gamma).updates
  {
    best := 0.0;
    updates := [];
    var last := 0.0;
    var ps: seq<L>, ns: seq<L>, logProbs: seq<L>, rewards: seq<real> := [], [], [], [];
    for e := 0 to |epochs|
      invariant State(best, last, ps, ns, rewards, updates) == RunEpochs(epochs[..e], T, gamma)
    {
      assert epochs[..e + 1][..e] == epochs[..e];
      var ndcg := epochs[e].startNdcg;
      if ndcg > best {
        best := ndcg;
      }
      last := ndcg;
      ps, ns, logProbs, rewards := [], [], [], [];
      var steps := epochs[e].steps;
      ghost var st0 := State(best, last, ps, ns, rewards, updates);
      for k := 0 to |steps|
        invariant Aligned(st0)
        invariant State(best, last, ps, ns, rewards, updates) == RunSteps(st0, e, steps[..k], T, gamma)
        invariant logProbs == []
      {
        assert steps[..k + 1][..k] == steps[..k];
        ghost var before := State(best, last, ps, ns, rewards, updates);
        var s := steps[k];
        if !(s.actionSum < 1 && k % T != 0) {
          ps := ps + [s.keep];
          ns := ns + [s.discard];
          ndcg := s.ndcg;
          if ndcg > best {
            best := ndcg;
          }
          var reward := ndcg - last;
          last := ndcg;
          rewards := rewards + [reward];
          if |rewards| > 0 && k % T == 0 {
            var rets;
            logProbs, rets := PolicyUpdate(logProbs, ps, ns, rewards, gamma);
            assert logProbs == RoutedLogProbs(ps, ns, Discounted(rewards, gamma));
            updates := updates + [Update(e, k, rewards, logProbs, rets)];
            ps, ns, logProbs, rewards := [], [], [], [];
          }
        }
        assert State(best, last, ps, ns, rewards, updates) == StepSpec(before, e, k, s, T, gamma);
      }
      assert steps[..|steps|] == steps;
    }
    assert epochs[..|epochs|] == epochs;
  }

  // ---------------------------------------------------------------------
  // best_ndcg

  /** The NDCGs the loop measures, in order: one per kept step. */
  function KeptNdcgs<L>(steps: seq<Step<L>>, T: int): seq<real>
    requires T != 0
  {
    if steps == [] then []
    else
      var k := |steps| - 1;
      KeptNdcgs(steps[..k], T) + (if Skipped(k, steps[k].actionSum, T) then [] else [steps[k].ndcg])
  }

  /** Every dev NDCG measured over the given epochs: the one at each epoch's
      start, then one per kept step. */
  function Observed<L>(epochs: seq<Epoch<L>>, T: int): seq<real>
    requires T != 0
  {
    if epochs == [] then []
    else
      var e := |epochs| - 1;
      Observed(epochs[..e], T) + [epochs[e].startNdcg] + KeptNdcgs(epochs[e].steps, T)
  }

  /** The running maximum of `init` and `xs`, as the loop keeps it. */
  function MaxOf(init: real, xs: seq<real>): real
  {
    if xs == [] then init else RealMax(MaxOf(init, xs[..|xs| - 1]), xs[|xs| - 1])
  }

  /** The running maximum is the maximum: at least `init` and every element,
      and equal to `init` or to one of the elements. */
  lemma {:induction false} MaxOfSpec(init: real, xs: seq<real>)
    ensures MaxOf(init, xs) >= init
    ensures forall i :: 0 <= i < |xs| ==> MaxOf(init, xs) >= xs[i]
    ensures MaxOf(init, xs) == init || exists i :: 0 <= i < |xs| && MaxOf(init, xs) == xs[i]
  {
    if xs != [] {
      var init' := xs[..|xs| - 1];
      MaxOfSpec(init, init');
      assert forall i :: 0 <= i < |init'| ==> init'[i] == xs[i];
      if MaxOf(init, xs) != init && MaxOf(init, xs) != xs[|xs| - 1] {
        var i :| 0 <= i < |init'| && MaxOf(init, init') == init'[i];
        assert MaxOf(init, xs) == xs[i];
      }
    }
  }

  lemma {:induction false} MaxOfAppend(init: real, xs: seq<real>, ys: seq<real>)
    ensures MaxOf(init, xs + ys) == MaxOf(MaxOf(init, xs), ys)
    decreases |ys|
  {
    if ys == [] {
      assert xs + ys == xs;
    } else {
      assert (xs + ys)[..|xs + ys| - 1] == xs + ys[..|ys| - 1];
      MaxOfAppend(init, xs, ys[..|ys| - 1]);
    }
  }

  lemma {:induction false} RunStepsBest<L>(st: State<L>, e: nat, steps: seq<Step<L>>, T: int, gamma: real)
    requires T != 0 && Aligned(st)
    ensures RunSteps(st, e, steps, T, gamma).best == MaxOf(st.best, KeptNdcgs(steps, T))
  {
    if steps != [] {
      var k := |steps| - 1;
      RunStepsBest(st, e, steps[..k], T, gamma);
      var kept := KeptNdcgs(steps[..k], T);
      if !Skipped(k, steps[k].actionSum, T) {
        assert KeptNdcgs(steps, T) == kept + [steps[k].ndcg];
        assert (kept + [steps[k].ndcg])[..|kept|] == kept;
      } else {
        assert KeptNdcgs(steps, T) == kept;
      }
    }
  }

  /** best_ndcg after any number of epochs is the maximum of 0 and every dev
      NDCG measured so far; so it never decreases and never misses a
      better NDCG. */
  lemma {:induction false} BestIsMaxObserved<L>(epochs: seq<Epoch<L>>, T: int, gamma: real)
    requires T != 0
    ensures RunEpochs(epochs, T, gamma).best == MaxOf(0.0, Observed(epochs, T))
  {
    if epochs != [] {
      var e := |epochs| - 1;
      var prev := RunEpochs(epochs[..e], T, gamma);
      BestIsMaxObserved(epochs[..e], T, gamma);
      var start := EpochStart(prev, epochs[e].startNdcg);
      RunStepsBest(start, e, epochs[e].steps, T, gamma);
      var o := Observed(epochs[..e], T);
      var kept := KeptNdcgs(epochs[e].steps, T);
      MaxOfAppend(0.0, o + [epochs[e].startNdcg], kept);
      MaxOfAppend(0.0, o, [epochs[e].startNdcg]);
      assert [epochs[e].startNdcg][..0] == [];
    }
  }

  // ---------------------------------------------------------------------
  // Rewards

  /** The NDCG before the first element of xs comes `prev`; the latest is
      the last element. */
  function LastOr(prev: real, xs: seq<real>): real
  {
    if xs == [] then prev else xs[|xs| - 1]
  }

  /** Successive gains: each element minus the one before it (the first
      minus `prev`). */
  function Deltas(prev: real, xs: seq<real>): seq<real>
  {
    if xs == [] then []
    else Deltas(prev, xs[..|xs| - 1]) + [xs[|xs| - 1] - LastOr(prev, xs[..|xs| - 1])]
  }

  lemma DeltasSnoc(prev: real, xs: seq<real>, x: real)
    ensures LastOr(prev, xs + [x]) == x
    ensures Deltas(prev, xs + [x]) == Deltas(prev, xs) + [x - LastOr(prev, xs)]
  {
    assert (xs + [x])[..|xs|] == xs;
  }

  function Sum(xs: seq<real>): real
  {
    if xs == [] then 0.0 else Sum(xs[..|xs| - 1]) + xs[|xs| - 1]
  }

  /** The gains telescope: they add up to the latest NDCG minus the first. */
  lemma {:induction false} DeltasTelescope(prev: real, xs: seq<real>)
    ensures |Deltas(prev, xs)| == |xs|
    ensures Sum(Deltas(prev, xs)) == LastOr(prev, xs) - prev
  {
    if xs != [] {
      var init := xs[..|xs| - 1];
      DeltasTelescope(prev, init);
      var d := Deltas(prev, xs);
      assert d[..|d| - 1] == Deltas(prev, init);
    }
  }

  /** All rewards the updates of a sequence consumed, in order. */
  function Windows<L>(us: seq<Update<L>>): seq<real>
  {
    if us == [] then [] else Windows(us[..|us| - 1]) + us[|us| - 1].rewards
  }

  lemma WindowsSnoc<L>(us: seq<Update<L>>, u: Update<L>)
    ensures Windows(us + [u]) == Windows(us) + u.rewards
  {
    assert (us + [u])[..|us|] == us;
  }

  /** One step: a skipped step changes nothing; a kept step moves last_ndcg
      to its NDCG and adds its gain to the rewards, which either stay
      pending or go, with the pending ones, into the one new update. */
  lemma StepTrace<L>(p: State<L>, e: nat, k: nat, s: Step<L>, T: int, gamma: real, n: nat)
    requires T != 0 && Aligned(p) && n <= |p.updates|
    ensures var r := StepSpec(p, e, k, s, T, gamma);
      && |p.updates| <= |r.updates| && r.updates[..|p.updates|] == p.updates
      && (Skipped(k, s.actionSum, T) ==> r == p)
      && (!Skipped(k, s.actionSum, T) ==>
            && r.last == s.ndcg
            && Windows(r.updates[n..]) + r.rewards == Windows(p.updates[n..]) + p.rewards + [s.ndcg - p.last])
  {
    var r := StepSpec(p, e, k, s, T, gamma);
    if !Skipped(k, s.actionSum, T) && k % T == 0 {
      var u := r.updates[|r.updates| - 1];
      assert r.updates == p.updates + [u];
      assert r.updates[n..] == p.updates[n..] + [u];
      WindowsSnoc(p.updates[n..], u);
    }
  }

  /** Over an epoch that starts with empty lists, every reward is the gain
      of a kept step over the previous measurement, each reward lands in
      exactly one update window or in the pending window, in step order,
      and last_ndcg is the latest measurement. */
  lemma {:induction false} RewardsTrace<L>(st: State<L>, e: nat, steps: seq<Step<L>>, T: int, gamma: real)
    requires T != 0 && st.ps == [] && st.ns == [] && st.rewards == []
    ensures var r := RunSteps(st, e, steps, T, gamma);
      && |st.updates| <= |r.updates| && r.updates[..|st.updates|] == st.updates
      && r.last == LastOr(st.last, KeptNdcgs(steps, T))
      && Windows(r.updates[|st.updates|..]) + r.rewards == Deltas(st.last, KeptNdcgs(steps, T))
  {
    var n := |st.updates|;
    if steps == [] {
      assert st.updates[n..] == [];
    } else {
      var k := |steps| - 1;
      var p := RunSteps(st, e, steps[..k], T, gamma);
      var r := RunSteps(st, e, steps, T, gamma);
      var kept := KeptNdcgs(steps[..k], T);
      assert && |st.updates| <= |p.updates| && p.updates[..n] == st.updates
             && p.last == LastOr(st.last, kept)
             && Windows(p.updates[n..]) + p.rewards == Deltas(st.last, kept) by {
        RewardsTrace(st, e, steps[..k], T, gamma);
      }
      assert r == StepSpec(p, e, k, steps[k], T, gamma);
      StepTrace(p, e, k, steps[k], T, gamma, n);
      assert r.updates[..n] == p.updates[..|p.updates|][..n];
      if !Skipped(k, steps[k].actionSum, T) {
        var x := steps[k].ndcg;
        assert KeptNdcgs(steps, T) == kept + [x];
        DeltasSnoc(st.last, kept, x);
      } else {
        assert KeptNdcgs(steps, T) == kept;
      }
    }
  }

  /** The rewards of an epoch add up to the NDCG of its last kept step minus
      the NDCG measured at its start. */
  lemma EpochRewardsSum<L>(st: State<L>, epoch: Epoch<L>, e: nat, T: int, gamma: real)
    requires T != 0
    ensures var start := EpochStart(st, epoch.startNdcg);
      var r := RunSteps(start, e, epoch.steps, T, gamma);
      && |st.updates| <= |r.updates|
      && Sum(Windows(r.updates[|st.updates|..]) + r.rewards) == r.last - epoch.startNdcg
  {
    var start := EpochStart(st, epoch.startNdcg);
    RewardsTrace(start, e, epoch.steps, T, gamma);
    DeltasTelescope(epoch.startNdcg, KeptNdcgs(epoch.steps, T));
  }

  // ---------------------------------------------------------------------
  // When updates fire, and how large a window gets

  /** The step indices below n that are multiples of T, in order. */
  function Multiples(n: nat, T: int): seq<nat>
    requires T != 0
  {
    if n == 0 then [] else Multiples(n - 1, T) + (if (n - 1) % T == 0 then [n - 1] else [])
  }

  function StepsOf<L>(us: seq<Update<L>>): seq<nat>
  {
    if us == [] then [] else StepsOf(us[..|us| - 1]) + [us[|us| - 1].step]
  }

  lemma ModNeg(k: nat, T: int)
    requires T < 0
    ensures k % T == k % (-T)
  {
  }

  lemma MulAtLeast(d: int, T: int)
    requires d >= 1 && T > 0
    ensures d * T >= T
  {
    var e := d - 1;
    assert d * T == e * T + T;
    assert e * T >= 0;
  }

  lemma ModUnique(a: nat, T: int, q: int, r: int)
    requires T > 0 && a == q * T + r && 0 <= r < T
    ensures a % T == r
  {
    var q', r' := a / T, a % T;
    assert a == q' * T + r';
    var d := q' - q;
    assert d * T == r - r' by {
      assert d * T == q' * T - q * T;
    }
    if d >= 1 {
      MulAtLeast(d, T);
    } else if d <= -1 {
      MulAtLeast(-d, T);
    } else {
      assert d == 0;
    }
  }

  /** Between two multiples of T the remainder goes up by one per step. */
  lemma ModStep(k: nat, T: int)
    requires T != 0 && (k + 1) % T != 0
    ensures (k + 1) % Abs(T) == k % Abs(T) + 1
  {
    var m := Abs(T);
    if T < 0 {
      ModNeg(k + 1, T);
    }
    assert (k + 1) % m != 0;
    var q, r := k / m, k % m;
    assert k == q * m + r;
    if r + 1 < m {
      ModUnique(k + 1, m, q, r + 1);
    } else {
      assert k + 1 == (q + 1) * m + 0;
      ModUnique(k + 1, m, q + 1, 0);
    }
  }

  /** Pending rewards after the first n steps of an epoch: at most the
      number of steps since the last multiple of T. */
  function WindowBound(n: nat, T: int): nat
    requires T != 0
  {
    if n == 0 then 0 else (n - 1) % Abs(T)
  }

  lemma StepsOfSnoc<L>(us: seq<Update<L>>, u: Update<L>)
    ensures StepsOf(us + [u]) == StepsOf(us) + [u.step]
  {
    assert (us + [u])[..|us|] == us;
  }

  /** A step whose index is a multiple of T is kept and fires an update
      holding the pending rewards plus its own, at most |T| of them. */
  lemma StepFires<L>(p: State<L>, e: nat, k: nat, s: Step<L>, T: int, gamma: real)
    requires T != 0 && Aligned(p) && k % T == 0
    requires |p.rewards| <= WindowBound(k, T)
    ensures var r := StepSpec(p, e, k, s, T, gamma);
      && r.rewards == []
      && |r.updates| == |p.updates| + 1 && r.updates[..|p.updates|] == p.updates
      && r.updates[|p.updates|].step == k && r.updates[|p.updates|].epoch == e
      && 1 <= |r.updates[|p.updates|].rewards| <= Abs(T)
  {
    var m := Abs(T);
    assert !Skipped(k, s.actionSum, T);
    assert WindowBound(k, T) < m by {
      if k > 0 { assert (k - 1) % m < m; }
    }
  }

  lemma WindowBoundStep(k: nat, T: int)
    requires T != 0 && k % T != 0
    ensures WindowBound(k + 1, T) == WindowBound(k, T) + 1
  {
    assert k >= 1;
    ModStep(k - 1, T);
  }

  /** A step whose index is not a multiple of T fires no update, and the
      pending window stays within its bound. */
  lemma StepQuiet<L>(p: State<L>, e: nat, k: nat, s: Step<L>, T: int, gamma: real)
    requires T != 0 && Aligned(p) && k % T != 0
    requires |p.rewards| <= WindowBound(k, T)
    ensures var r := StepSpec(p, e, k, s, T, gamma);
      && r.updates == p.updates
      && |r.rewards| <= WindowBound(k + 1, T)
  {
    WindowBoundStep(k, T);
    var r := StepSpec(p, e, k, s, T, gamma);
    if Skipped(k, s.actionSum, T) {
      assert r == p;
    } else {
      assert r.rewards == p.rewards + [s.ndcg - p.last];
    }
  }

  /** One step k: it fires an update exactly when k is a multiple of T; the
      update takes the pending rewards plus this step's, at most |T| of
      them; and the pending window stays within its bound. */
  lemma StepSchedule<L>(p: State<L>, e: nat, k: nat, s: Step<L>, T: int, gamma: real, n: nat)
    requires T != 0 && Aligned(p) && n <= |p.updates|
    requires |p.rewards| <= WindowBound(k, T)
    ensures var r := StepSpec(p, e, k, s, T, gamma);
      && |p.updates| <= |r.updates| && r.updates[..|p.updates|] == p.updates
      && StepsOf(r.updates[n..]) == StepsOf(p.updates[n..]) + (if k % T == 0 then [k] else [])
      && (forall j :: |p.updates| <= j < |r.updates| ==>
            r.updates[j].epoch == e && 1 <= |r.updates[j].rewards| <= Abs(T))
      && |r.rewards| <= WindowBound(k + 1, T)
  {
    var r := StepSpec(p, e, k, s, T, gamma);
    if k % T == 0 {
      StepFires(p, e, k, s, T, gamma);
      var u := r.updates[|p.updates|];
      assert r.updates == p.updates + [u];
      assert r.updates[n..] == p.updates[n..] + [u];
      StepsOfSnoc(p.updates[n..], u);
    } else {
      StepQuiet(p, e, k, s, T, gamma);
      assert StepsOf(r.updates[n..]) == StepsOf(p.updates[n..]) + [];
    }
  }

  /** Over an epoch that starts with empty lists: an update fires at every
      step whose index is a multiple of T (such a step is never skipped)
      and at no other step; each update consumes between 1 and |T| rewards;
      and the pending window never holds as many as |T| rewards. */
  lemma {:induction false} UpdateSchedule<L>(st: State<L>, e: nat, steps: seq<Step<L>>, T: int, gamma: real)
    requires T != 0 && st.ps == [] && st.ns == [] && st.rewards == []
    ensures var r := RunSteps(st, e, steps, T, gamma);
      && |st.updates| <= |r.updates| && r.updates[..|st.updates|] == st.updates
      && StepsOf(r.updates[|st.updates|..]) == Multiples(|steps|, T)
      && (forall j :: |st.updates| <= j < |r.updates| ==>
            r.updates[j].epoch == e && 1 <= |r.updates[j].rewards| <= Abs(T))
      && |r.rewards| <= WindowBound(|steps|, T) < Abs(T)
  {
    var n := |st.updates|;
    if steps == [] {
      assert st.updates[n..] == [];
    } else {
      var k := |steps| - 1;
      UpdateSchedule(st, e, steps[..k], T, gamma);
      var p := RunSteps(st, e, steps[..k], T, gamma);
      StepSchedule(p, e, k, steps[k], T, gamma, n);
      var r := RunSteps(st, e, steps, T, gamma);
      assert r == StepSpec(p, e, k, steps[k], T, gamma);
      assert r.updates[..n] == p.updates[..|p.updates|][..n];
      assert WindowBound(|steps|, T) < Abs(T) by {
        assert k % Abs(T) < Abs(T);
      }
    }
  }
}

=== FILE: pytext.dfy ===
/** The Python string built-ins the data loaders and the run writer rely on:
    str.strip, str.split with and without a separator, int() of a text and
    str() of an integer, each with the law that ties it to its partner. */
module PyText {
  import opened Common

  /** str.isspace() of one character (the characters str.split() and
      str.strip() treat as whitespace). */
  predicate IsSpace(c: char)
  {
    || ('\U{9}' <= c <= '\U{D}')
    || ('\U{1C}' <= c <= '\U{20}')
    || c == '\U{85}' || c == '\U{A0}' || c == '\U{1680}'
    || ('\U{2000}' <= c <= '\U{200A}')
    || c == '\U{2028}' || c == '\U{2029}' || c == '\U{202F}' || c == '\U{205F}' || c == '\U{3000}'
  }

  /** The whitespace int() ignores around a literal: the six C-locale
      space characters (tab, line feed, vertical tab, form feed, carriage
      return, space) and any non-ASCII character str.isspace() accepts.
      The ASCII separators U+001C to U+001F are whitespace to str.split()
      but not to int(). */
  predicate IsIntSpace(c: char)
  {
    c == ' ' || ('\U{9}' <= c <= '\U{D}') || (c as int >= 128 && IsSpace(c))
  }

  predicate IsNewline(c: char) { c == '\n' }

  predicate IsDigit(c: char) { '0' <= c <= '9' }

  /** The character sets stripped here: str.split()'s whitespace (skipped
      before each word), int()'s own whitespace (trimmed around a literal),
      and str.strip('\n'). */
  datatype CharClass = Whitespace | IntSpace | Newline

  predicate InClass(cls: CharClass, c: char)
  {
    match cls
    case Whitespace => IsSpace(c)
    case IntSpace => IsIntSpace(c)
    case Newline => IsNewline(c)
  }

  predicate AllDropped(s: string, drop: CharClass)
  {
    forall k :: 0 <= k < |s| ==> InClass(drop, s[k])
  }

  /** Removes the leading characters that `drop` selects: what is left is a
      suffix of `s`, everything removed was selected, and what is left does
      not start with a selected character. */
  function StripLeading(s: string, drop: CharClass): (r: string)
    ensures |r| <= |s| && r == s[|s| - |r|..]
    ensures AllDropped(s[..|s| - |r|], drop)
    ensures r == [] || !InClass(drop, r[0])
  {
    if s != [] && InClass(drop, s[0]) then
      var r := StripLeading(s[1..], drop);
      assert r == s[|s| - |r|..] && AllDropped(s[..|s| - |r|], drop) by {
        DroppedFront(s, drop, r);
      }
      r
    else s
  }

  /** Removes the trailing characters that `drop` selects (mirror image of
      StripLeading). */
  function StripTrailing(s: string, drop: CharClass): (r: string)
    ensures |r| <= |s| && r == s[..|r|]
    ensures AllDropped(s[|r|..], drop)
    ensures r == [] || !InClass(drop, r[|r| - 1])
  {
    if s != [] && InClass(drop, s[|s| - 1]) then
      var r := StripTrailing(s[..|s| - 1], drop);
      assert r == s[..|r|] && AllDropped(s[|r|..], drop) by {
        DroppedBack(s, drop, |r|);
      }
      r
    else s
  }

  /** One step of StripLeading: a selected first character joins the
      removed prefix. */
  lemma DroppedFront(s: string, drop: CharClass, r: string)
    requires s != [] && InClass(drop, s[0])
    requires |r| <= |s[1..]| && r == s[1..][|s[1..]| - |r|..]
    requires AllDropped(s[1..][..|s[1..]| - |r|], drop)
    ensures r == s[|s| - |r|..]
    ensures AllDropped(s[..|s| - |r|], drop)
  {
    var m := |s| - |r|;
    var t := s[1..];
    assert t[..m - 1] == t[..|t| - |r|];
    forall k | 0 <= k < m ensures InClass(drop, s[..m][k]) {
      if k > 0 {
        assert s[..m][k] == t[..m - 1][k - 1];
      }
    }
    assert t[m - 1..] == s[m..];
  }

  lemma DroppedBack(s: string, drop: CharClass, m: nat)
    requires m < |s| && InClass(drop, s[|s| - 1]) && AllDropped(s[..|s| - 1][m..], drop)
    ensures s[..|s| - 1][..m] == s[..m]
    ensures AllDropped(s[m..], drop)
  {
    forall k | 0 <= k < |s| - m ensures InClass(drop, s[m..][k]) {
      if k < |s| - 1 - m {
        assert s[m..][k] == s[..|s| - 1][m..][k];
      }
    }
  }

  /** str.strip(chars): both ends. What is left neither starts nor ends
      with a selected character. */
  function Strip(s: string, drop: CharClass): (r: string)
    ensures |r| <= |s|
    ensures r == [] || (!InClass(drop, r[0]) && !InClass(drop, r[|r| - 1]))
  {
    var l := StripLeading(s, drop);
    var r := StripTrailing(l, drop);
    assert r == [] || !InClass(drop, r[0]) by {
      if r != [] {
        assert r[0] == l[0];
      }
    }
    r
  }

  /** Stripping leaves nothing exactly when every character is selected. */
  lemma StripEmpty(s: string, drop: CharClass)
    ensures Strip(s, drop) == [] <==> AllDropped(s, drop)
  {
    var l := StripLeading(s, drop);
    var r := StripTrailing(l, drop);
    if r == [] {
      assert l[|r|..] == l;
      assert s[..|s| - |l|] == s;
    } else {
      assert r[0] == l[0] == s[|s| - |l|];
    }
  }

  lemma {:induction false} StripLeadingPrefix(p: string, t: string, drop: CharClass)
    requires AllDropped(p, drop)
    requires t != [] && !InClass(drop, t[0])
    ensures StripLeading(p + t, drop) == t
    decreases |p|
  {
    if p == [] {
      assert p + t == t;
    } else {
      var s := p + t;
      assert s[0] == p[0] && InClass(drop, p[0]);
      assert s[1..] == p[1..] + t;
      assert AllDropped(p[1..], drop) by {
        var p' := p[1..];
        forall k | 0 <= k < |p'| ensures InClass(drop, p'[k]) {
          assert p'[k] == p[k + 1];
        }
      }
      StripLeadingPrefix(p[1..], t, drop);
      assert StripLeading(s, drop) == StripLeading(s[1..], drop);
    }
  }

  lemma {:induction false} StripTrailingSuffix(t: string, q: string, drop: CharClass)
    requires AllDropped(q, drop)
    requires t != [] && !InClass(drop, t[|t| - 1])
    ensures StripTrailing(t + q, drop) == t
    decreases |q|
  {
    if q == [] {
      assert t + q == t;
    } else {
      var s := t + q;
      assert s[|s| - 1] == q[|q| - 1] && InClass(drop, q[|q| - 1]);
      assert s[..|s| - 1] == t + q[..|q| - 1];
      assert AllDropped(q[..|q| - 1], drop) by {
        var q' := q[..|q| - 1];
        forall k | 0 <= k < |q'| ensures InClass(drop, q'[k]) {
          assert q'[k] == q[k];
        }
      }
      StripTrailingSuffix(t, q[..|q| - 1], drop);
      assert StripTrailing(s, drop) == StripTrailing(s[..|s| - 1], drop);
    }
  }

  /** Stripping a text surrounded by selected characters gives the text back,
      provided the text itself neither starts nor ends with one. */
  lemma StripAround(p: string, t: string, q: string, drop: CharClass)
    requires AllDropped(p, drop) && AllDropped(q, drop)
    requires t != [] && !InClass(drop, t[0]) && !InClass(drop, t[|t| - 1])
    ensures Strip(p + t + q, drop) == t
  {
    assert p + t + q == p + (t + q);
    StripLeadingPrefix(p, t + q, drop);
    StripTrailingSuffix(t, q, drop);
  }

  // ---------------------------------------------------------------------
  // str.split(sep) and its inverse sep.join(fields)

  function Join(fields: seq<string>, sep: char): string
  {
    if |fields| == 0 then []
    else if |fields| == 1 then fields[0]
    else fields[0] + [sep] + Join(fields[1..], sep)
  }

  predicate SepFree(fields: seq<string>, sep: char)
  {
    forall i :: 0 <= i < |fields| ==> sep !in fields[i]
  }

  /** str.split(sep) with an explicit one-character separator: at least one
      field, no field holds the separator, and joining the fields with the
      separator gives the text back. */
  function SplitOn(s: string, sep: char): (r: seq<string>)
    ensures |r| >= 1
    ensures SepFree(r, sep)
    ensures Join(r, sep) == s
  {
    if s == [] then [[]]
    else
      var rest := SplitOn(s[1..], sep);
      if s[0] == sep then
        assert Join([[]] + rest, sep) == [sep] + Join(rest, sep) by {
          assert ([[]] + rest)[1..] == rest;
        }
        [[]] + rest
      else
        var r := [[s[0]] + rest[0]] + rest[1..];
        assert Join(r, sep) == [s[0]] + Join(rest, sep) by {
          if |rest| >= 2 {
            assert r[1..] == rest[1..];
          }
        }
        r
  }

  lemma JoinCons(f: string, rest: seq<string>, sep: char)
    requires |rest| >= 1
    ensures Join([f] + rest, sep) == f + [sep] + Join(rest, sep)
  {
    assert ([f] + rest)[1..] == rest;
  }

  lemma JoinFirst(w: string, c: char, rest: seq<string>, sep: char)
    requires |rest| >= 1
    ensures Join([[c] + w] + rest, sep) == [c] + Join([w] + rest, sep)
  {
    assert ([[c] + w] + rest)[1..] == rest;
    assert ([w] + rest)[1..] == rest;
  }

  /** The other half of the round trip: splitting the joined text gives the
      fields back, whenever no field holds the separator. */
  lemma {:induction false} SplitJoin(fields: seq<string>, sep: char)
    requires |fields| >= 1 && SepFree(fields, sep)
    ensures SplitOn(Join(fields, sep), sep) == fields
    decreases |Join(fields, sep)|
  {
    var s := Join(fields, sep);
    var f := fields[0];
    if |fields| == 1 {
      if f != [] {
        JoinOneWord(f, sep);
      }
    } else if f == [] {
      assert s == [sep] + Join(fields[1..], sep);
      assert s[1..] == Join(fields[1..], sep);
      SplitJoin(fields[1..], sep);
      assert [[]] + fields[1..] == fields;
    } else {
      var fields' := [f[1..]] + fields[1..];
      assert f == [f[0]] + f[1..];
      assert fields == [[f[0]] + f[1..]] + fields[1..];
      JoinFirst(f[1..], f[0], fields[1..], sep);
      assert s[1..] == Join(fields', sep);
      assert f[0] != sep by { assert f[0] in fields[0]; }
      SplitJoin(fields', sep);
      assert [[f[0]] + fields'[0]] + fields'[1..] == fields;
    }
  }

  lemma {:induction false} JoinWithout(fields: seq<string>, sep: char, c: char)
    requires c != sep
    requires forall i :: 0 <= i < |fields| ==> c !in fields[i]
    ensures c !in Join(fields, sep)
  {
    if |fields| > 1 {
      JoinWithout(fields[1..], sep, c);
    }
  }

  /** Stripping the newline that ends a line without other newlines. */
  lemma StripNewline(t: string)
    requires t != [] && '\n' !in t
    ensures Strip(t + "\n", Newline) == t
  {
    assert t[0] in t && t[|t| - 1] in t;
    assert AllDropped("\n", Newline);
    StripAround([], t, "\n", Newline);
    assert [] + t + "\n" == t + "\n";
  }

  /** A line written as separator-joined fields ended by a newline splits
      back into those fields once the newline is stripped. */
  lemma SplitLineJoin(fields: seq<string>, sep: char)
    requires |fields| >= 2 && sep != '\n'
    requires forall i :: 0 <= i < |fields| ==> sep !in fields[i] && '\n' !in fields[i]
    ensures SplitOn(Strip(Join(fields, sep) + "\n", Newline), sep) == fields
  {
    var t := Join(fields, sep);
    JoinWithout(fields, sep, '\n');
    assert t == fields[0] + [sep] + Join(fields[1..], sep);
    StripNewline(t);
    SplitJoin(fields, sep);
  }

  /** A single separator-free field splits to itself. */
  lemma {:induction false} JoinOneWord(f: string, sep: char)
    requires f != [] && sep !in f
    ensures SplitOn(f, sep) == [f]
    decreases |f|
  {
    if |f| > 1 {
      JoinOneWord(f[1..], sep);
    }
    assert f == [f[0]] + f[1..];
  }

  // ---------------------------------------------------------------------
  // str.split() without a separator: runs of whitespace separate words,
  // and no word is empty

  predicate IsWord(w: string)
  {
    w != [] && forall k :: 0 <= k < |w| ==> !IsSpace(w[k])
  }

  /** Length of the leading run of non-whitespace characters. */
  function WordLen(t: string): (n: nat)
    ensures n <= |t|
    ensures forall k :: 0 <= k < n ==> !IsSpace(t[k])
    ensures n == |t| || IsSpace(t[n])
  {
    if t == [] || IsSpace(t[0]) then 0 else 1 + WordLen(t[1..])
  }

  /** str.split(): every piece is a non-empty word without whitespace. */
  function SplitWords(s: string): (r: seq<string>)
    ensures forall i :: 0 <= i < |r| ==> IsWord(r[i])
    decreases |s|
  {
    var t := StripLeading(s, Whitespace);
    if t == [] then []
    else
      var n := WordLen(t);
      assert n >= 1 by { assert !IsSpace(t[0]); }
      var w, rest := t[..n], SplitWords(t[n..]);
      PrefixWord(t, n);
      ConsWords(w, rest);
      [w] + rest
  }

  lemma PrefixWord(t: string, n: nat)
    requires 1 <= n <= |t| && forall k :: 0 <= k < n ==> !IsSpace(t[k])
    ensures IsWord(t[..n])
  {
    assert forall k :: 0 <= k < n ==> t[..n][k] == t[k];
  }

  lemma ConsWords(w: string, rest: seq<string>)
    requires IsWord(w) && forall i :: 0 <= i < |rest| ==> IsWord(rest[i])
    ensures forall i :: 0 <= i < |rest| + 1 ==> IsWord(([w] + rest)[i])
  {
    assert forall i :: 1 <= i < |rest| + 1 ==> ([w] + rest)[i] == rest[i - 1];
  }

  lemma {:induction false} WordLenOfWord(w: string, x: string)
    requires forall k :: 0 <= k < |w| ==> !IsSpace(w[k])
    requires x == [] || IsSpace(x[0])
    ensures WordLen(w + x) == |w|
    decreases |w|
  {
    if w != [] {
      assert (w + x)[1..] == w[1..] + x;
      WordLenOfWord(w[1..], x);
    } else {
      assert w + x == x;
    }
  }

  /** A word followed by nothing or by whitespace splits off as one piece. */
  lemma SplitWordsWord(w: string, x: string)
    requires IsWord(w)
    requires x == [] || IsSpace(x[0])
    ensures SplitWords(w + x) == [w] + SplitWords(x)
  {
    var s := w + x;
    assert s[0] == w[0];
    assert StripLeading(s, Whitespace) == s;
    WordLenOfWord(w, x);
    assert s[..|w|] == w && s[|w|..] == x;
  }

  /** Leading whitespace does not change the split. */
  lemma SplitWordsSpace(c: char, x: string)
    requires IsSpace(c)
    ensures SplitWords([c] + x) == SplitWords(x)
  {
    assert ([c] + x)[1..] == x;
    assert StripLeading([c] + x, Whitespace) == StripLeading(x, Whitespace);
  }

  lemma SplitWordsJoinCons(w: string, tail: seq<string>)
    requires IsWord(w) && tail != []
    requires SplitWords(Join(tail, ' ')) == tail
    ensures SplitWords(Join([w] + tail, ' ')) == [w] + tail
  {
    var rest := Join(tail, ' ');
    assert ([w] + tail)[1..] == tail;
    assert Join([w] + tail, ' ') == w + ([' '] + rest);
    SplitWordsWord(w, [' '] + rest);
    SplitWordsSpace(' ', rest);
  }

  /** Splitting words joined by single spaces gives the words back. */
  lemma {:induction false} SplitWordsJoin(words: seq<string>)
    requires forall i :: 0 <= i < |words| ==> IsWord(words[i])
    ensures SplitWords(Join(words, ' ')) == words
  {
    if |words| == 1 {
      var w := words[0];
      assert w + [] == w;
      SplitWordsWord(w, []);
      assert SplitWords([]) == [];
    } else if words != [] {
      var tail := words[1..];
      assert [words[0]] + tail == words;
      assert forall i :: 0 <= i < |tail| ==> IsWord(tail[i]) by {
        forall i | 0 <= i < |tail| ensures IsWord(tail[i]) {
          assert tail[i] == words[i + 1];
        }
      }
      SplitWordsJoin(tail);
      SplitWordsJoinCons(words[0], tail);
    }
  }

  // ---------------------------------------------------------------------
  // int(text) and str(integer)

  /** A decimal literal as int() accepts it: ASCII digits, with single
      underscores allowed between digits. */
  predicate IsDecimal(t: string)
  {
    && |t| > 0
    && IsDigit(t[0]) && IsDigit(t[|t| - 1])
    && (forall k :: 0 <= k < |t| ==> IsDigit(t[k]) || t[k] == '_')
    && (forall k :: 0 <= k < |t| - 1 ==> DigitNear(t, k))
  }

  /** Of the characters at k and k + 1, at least one is a digit. */
  predicate DigitNear(t: string, k: nat)
    requires k + 1 < |t|
  {
    IsDigit(t[k]) || IsDigit(t[k + 1])
  }

  /** The value of the digits of `t`, underscores ignored. */
  function DecimalValue(t: string): nat
  {
    if t == [] then 0
    else if IsDigit(t[|t| - 1]) then DecimalValue(t[..|t| - 1]) * 10 + (t[|t| - 1] as int - '0' as int)
    else DecimalValue(t[..|t| - 1])
  }

  /** A signed decimal literal as int() reads it once the surrounding
      whitespace is gone; anything else is a ValueError (None here). */
  function ParseLiteral(t: string): (r: Option<int>)
    ensures r.Some? ==> t != [] && IsDigit(t[|t| - 1])
    ensures r.Some? && r.value < 0 ==> t[0] == '-'
  {
    if t != [] && (t[0] == '+' || t[0] == '-') then
      if IsDecimal(t[1..]) then
        Some(if t[0] == '-' then -(DecimalValue(t[1..]) as int) else DecimalValue(t[1..]))
      else None
    else if IsDecimal(t) then Some(DecimalValue(t))
    else None
  }

  /** int(s): surrounding int() whitespace (IsIntSpace) is ignored, then an
      optional sign and a decimal literal; anything else is a ValueError
      (None here). */
  function ParseInt(s: string): (r: Option<int>)
    ensures r.Some? ==> var t := Strip(s, IntSpace); t != [] && IsDigit(t[|t| - 1])
    ensures r.Some? && r.value < 0 ==> Strip(s, IntSpace)[0] == '-'
  {
    ParseLiteral(Strip(s, IntSpace))
  }

  function DigitChar(d: nat): (c: char)
    requires d < 10
    ensures IsDigit(c) && c as int - '0' as int == d
  {
    ('0' as int + d) as char
  }

  /** str(n) for a natural number: its decimal digits, most significant first. */
  function NatToString(n: nat): (s: string)
    ensures |s| >= 1
    ensures forall k :: 0 <= k < |s| ==> IsDigit(s[k])
  {
    if n < 10 then [DigitChar(n)] else NatToString(n / 10) + [DigitChar(n % 10)]
  }

  /** str(i) for any integer: a minus sign exactly for a negative integer,
      then digits. */
  function IntToString(i: int): (s: string)
    ensures |s| >= 1 && (IsDigit(s[0]) || s[0] == '-')
    ensures s[0] == '-' <==> i < 0
    ensures forall k :: 1 <= k < |s| ==> IsDigit(s[k])
  {
    if i < 0 then "-" + NatToString(-i) else NatToString(i)
  }

  lemma {:induction false} NatToStringValue(n: nat)
    ensures IsDecimal(NatToString(n))
    ensures DecimalValue(NatToString(n)) == n
  {
    var s := NatToString(n);
    if n >= 10 {
      NatToStringValue(n / 10);
      assert s[..|s| - 1] == NatToString(n / 10);
    }
  }

  /** Text with no droppable character at either end is left as it is. */
  lemma StripNothing(t: string, drop: CharClass)
    requires t != [] && !InClass(drop, t[0]) && !InClass(drop, t[|t| - 1])
    ensures Strip(t, drop) == t
  {
    StripAround([], t, [], drop);
    assert [] + t + [] == t;
  }

  lemma ParseDecimal(s: string)
    requires IsDecimal(Strip(s, IntSpace))
    ensures ParseInt(s) == Some(DecimalValue(Strip(s, IntSpace)))
  {
    assert IsDigit(Strip(s, IntSpace)[0]);
  }

  lemma ParseNegative(s: string)
    requires |Strip(s, IntSpace)| > 0 && Strip(s, IntSpace)[0] == '-' && IsDecimal(Strip(s, IntSpace)[1..])
    ensures ParseInt(s) == Some(-(DecimalValue(Strip(s, IntSpace)[1..]) as int))
  {
  }

  /** int() reads the text of a natural number back. */
  lemma NatToStringParses(n: nat)
    ensures ParseInt(NatToString(n)) == Some(n)
  {
    var d := NatToString(n);
    assert ParseLiteral(d) == Some(n) by {
      NatToStringValue(n);
      assert IsDigit(d[0]);
    }
    assert Strip(d, IntSpace) == d by {
      StripNothing(d, IntSpace);
    }
  }

  /** int() reads the text of a negative number back. */
  lemma NegativeParses(n: nat)
    ensures ParseInt("-" + NatToString(n)) == Some(-(n as int))
  {
    var d := NatToString(n);
    var t := "-" + d;
    assert ParseLiteral(t) == Some(-(n as int)) by {
      NatToStringValue(n);
      assert t[0] == '-' && t[1..] == d;
    }
    assert Strip(t, IntSpace) == t by {
      assert t[0] == '-' && t[|t| - 1] == d[|d| - 1];
      StripNothing(t, IntSpace);
    }
  }

  lemma IntToStringParses(i: int)
    ensures ParseInt(IntToString(i)) == Some(i)
  {
    if i < 0 {
      NegativeParses(-i);
    } else {
      NatToStringParses(i);
    }
  }

  /** int() reads back what str() writes, whatever int() whitespace surrounds it. */
  lemma ParseIntRoundTrip(p: string, i: int, q: string)
    requires AllDropped(p, IntSpace) && AllDropped(q, IntSpace)
    ensures ParseInt(p + IntToString(i) + q) == Some(i)
  {
    var t := IntToString(i);
    assert Strip(p + t + q, IntSpace) == Strip(t, IntSpace) by {
      var m: nat := if i < 0 then -i else i;
      var d := NatToString(m);
      assert !IsIntSpace(t[0]) && !IsIntSpace(t[|t| - 1]) by {
        if i < 0 {
          assert t[0] == '-' && t[|t| - 1] == d[|d| - 1];
        }
      }
      StripAround(p, t, q, IntSpace);
      StripNothing(t, IntSpace);
    }
    IntToStringParses(i);
  }

  /** The error half: a text holding a character that can appear neither in
      int() whitespace nor in a signed decimal literal is not an integer. */
  lemma ParseIntRejects(s: string, k: nat)
    requires k < |s|
    requires !IsIntSpace(s[k]) && !IsDigit(s[k]) && s[k] !in "+-_"
    ensures ParseInt(s) == None
  {
    var t := Strip(s, IntSpace);
    var c := s[k];
    assert c in t by {
      StripKeeps(s, k, IntSpace);
    }
    if t != [] && (t[0] == '+' || t[0] == '-') {
      assert c in t[1..] by {
        assert t == [t[0]] + t[1..];
      }
      NotDecimal(t[1..], c);
    } else {
      NotDecimal(t, c);
    }
  }

  /** An ASCII information separator before the literal is a ValueError,
      although str.split() would have treated it as whitespace. */
  lemma SeparatorRejected(d: char)
    requires IsDigit(d)
    ensures ParseInt(['\U{1F}', d]) == None
    ensures IsSpace('\U{1F}')
  {
    ParseIntRejects(['\U{1F}', d], 0);
  }

  /** A character that `drop` does not select survives stripping. */
  lemma StripKeeps(s: string, k: nat, drop: CharClass)
    requires k < |s| && !InClass(drop, s[k])
    ensures s[k] in Strip(s, drop)
  {
    var l := StripLeading(s, drop);
    var a := |s| - |l|;
    assert a <= k by {
      LeadingKeeps(s, k, drop);
    }
    var j := k - a;
    assert l[j] == s[k];
    var t := StripTrailing(l, drop);
    assert j < |t| by {
      TrailingKeeps(l, j, drop);
    }
    assert t[j] == l[j];
  }

  lemma LeadingKeeps(s: string, k: nat, drop: CharClass)
    requires k < |s| && !InClass(drop, s[k])
    ensures |s| - |StripLeading(s, drop)| <= k
  {
    DroppedPrefix(s, |s| - |StripLeading(s, drop)|, drop);
  }

  lemma TrailingKeeps(l: string, j: nat, drop: CharClass)
    requires j < |l| && !InClass(drop, l[j])
    ensures j < |StripTrailing(l, drop)|
  {
    DroppedSuffix(l, |StripTrailing(l, drop)|, drop);
  }

  lemma DroppedPrefix(s: string, a: nat, drop: CharClass)
    requires a <= |s| && AllDropped(s[..a], drop)
    ensures forall j :: 0 <= j < a ==> InClass(drop, s[j])
  {
    assert forall j :: 0 <= j < a ==> s[..a][j] == s[j];
  }

  lemma DroppedSuffix(s: string, m: nat, drop: CharClass)
    requires m <= |s| && AllDropped(s[m..], drop)
    ensures forall j :: m <= j < |s| ==> InClass(drop, s[j])
  {
    assert forall j :: m <= j < |s| ==> s[m..][j - m] == s[j];
  }

  /** A text holding a character that is neither a digit nor an underscore
      is not a decimal literal. */
  lemma NotDecimal(t: string, c: char)
    requires c in t && !IsDigit(c) && c != '_'
    ensures !IsDecimal(t)
  {
    var i :| 0 <= i < |t| && t[i] == c;
  }
}
